=== FILE: README.md ===
# GoldMiracle pages — a Dafny model

GoldMiracle is a React demo of a gold-mining and crypto-trading site. This
project models the logic behind its pages as pure Dafny functions and proves
properties about them. It covers:

- the trading page: the candle series fed by the kline stream; the chart
  geometry, including the cursor-to-candle mapping; the market list built
  from the 24-hour ticker snapshot; the search box; the depth meter and the
  order-book ladder; and the trade ticket with its order lists and leverage
  stepper;
- the mining package, gold mining and starter rig pages: the package tables,
  the selection lookups, the closed-form yield calculator, the Proceed and
  "Use Minimum" buttons, the portfolio summary, the logged-in user record and
  the avatar initials;
- the home page's live widget: the `mm:ss` formatter, the 15-second sync
  countdown and the joined-users counter;
- the sign-up and login forms: the submit guards, the confirmation field's
  class and the busy-while-submitting protocol.

The JavaScript library behaviour the pages depend on is modelled once, in
small modules:

- `JsString`: `trim`, `toUpperCase`, `split(/\s+/)`, `includes`, `join`, the
  `cls` helper and `a || b || c` over strings;
- `JsArray`: `find` and `filter`;
- `JsNum`: `x || 0`, `Math.floor`, `Math.round`, `Math.min` and `Math.max`.

A JavaScript number is an exact `real`. A value that may be NaN is an
`Option<real>`, with `None` standing for NaN.

Two behaviours of the code are worth stating up front:

- An empty order book shows 0% bids and 100% asks, because `total || 1`
  makes the bid share 0 and the ask share is `100 - bidPct`.
- A failed initial kline request clears the candle series
  (TradingPro.jsx:473-475). A failed ticker poll keeps the list, map and
  selection and only raises the banner; a failed order-book poll keeps the
  book and best prices (TradingPro.jsx:566-568); a stream message that fails
  to decode is ignored (TradingPro.jsx:533-535).

## Model

| member | source | states |
|---|---|---|
| `Candles.KeepLast` | frontend/src/pages/TradingPro.jsx:530-531 | `slice(-n)` keeps the last `n` elements, or all of them when there are fewer |
| `Candles.Merge` | frontend/src/pages/TradingPro.jsx:517-532 | the new candle always ends the series; the same open time as the newest replaces it and keeps the rest; any other open time appends it, keeps at most 120 candles and drops the oldest |
| `Candles.LoadThenStream` | frontend/src/pages/TradingPro.jsx:456-475 | after the initial request of at most 120 candles, any run of stream messages keeps the series within 120; after a failed request the first message starts a one-candle series |
| `Candles.MergeAllBounded` | frontend/src/pages/TradingPro.jsx:529-531 | a series within the 120-candle bound stays within it after any run of messages |
| `Candles.MergeLatestWins` | frontend/src/pages/TradingPro.jsx:522-527 | of two updates for one open time the later one wins, so re-delivery is harmless |
| `Candles.MergeKeepsAscending` | frontend/src/pages/TradingPro.jsx:517-532 | messages for the newest or a later interval keep open times strictly ascending |
| `Candles.OlderCandleIsAppended` | frontend/src/pages/TradingPro.jsx:529-531 | there is no ordering guard: an older candle is appended and breaks the time order |
| `Candles.MergeAppends` | frontend/src/pages/TradingPro.jsx:529-531 | below capacity a new open time is simply appended |
| `Candles.MergeReplaces` | frontend/src/pages/TradingPro.jsx:522-527 | the newest open time replaces the last candle |
| `Candles.RepeatedUpdatesScenario` | frontend/src/pages/TradingPro.jsx:517-532 | updates for 100, 100, 200, 200, 300 leave three candles, each the latest for its time |
| `Chart.MinLow` | frontend/src/pages/TradingPro.jsx:112-114 | the lowest low bounds every low and is one of them |
| `Chart.MaxHigh` | frontend/src/pages/TradingPro.jsx:113-115 | the highest high bounds every high and is one of them |
| `Chart.VerticalScale` | frontend/src/pages/TradingPro.jsx:109-116 | no scale for an empty series; otherwise min and max are the series' lowest low and highest high, the plot is at least 10 high, the span is never 0, it is `max - min` for a real range and 1 for a flat one, and every candle lies between min and max |
| `Chart.YOfScale` | frontend/src/pages/TradingPro.jsx:118 | for any scale, its max sits on the top padding, its min at the bottom of the plot when the range is real, and a higher price is never drawn lower |
| `Chart.ChartEndpoints` | frontend/src/pages/TradingPro.jsx:109-118 | on the drawn chart the series' highest high sits on the top padding and, for a real range, its lowest low at the bottom of the plot |
| `Chart.YOfInsidePlot` | frontend/src/pages/TradingPro.jsx:112-118 | every open, high, low and close of a well-formed series is drawn within the plot's rows |
| `Chart.BodyWidth` | frontend/src/pages/TradingPro.jsx:147-148 | a candle body is 62% of the column, clamped to 4 to 10 pixels: a narrow column gets 4 and a wide one 10 |
| `Chart.BodyHeight` | frontend/src/pages/TradingPro.jsx:173-175 | a body covers open to close and is at least 2.5 pixels high |
| `Chart.CandleXOrder` | frontend/src/pages/TradingPro.jsx:146-152 | candle centres lie inside the plot, strictly left to right in series order |
| `Chart.TagY` | frontend/src/pages/TradingPro.jsx:204 | the price tag sits 10 pixels above the line, pinned 6 pixels under the top padding when the line is higher and, on a tall enough canvas, 18 pixels above the bottom padding when the line is lower |
| `Chart.LiveTag` | frontend/src/pages/TradingPro.jsx:186-204 | the live line and tag are drawn exactly when the live price is non-zero |
| `Chart.HoverIndex` | frontend/src/pages/TradingPro.jsx:286-297 | the hovered index is a valid candle index for a non-empty series, and 0 for an empty one |
| `Chart.ClampIndex` | frontend/src/pages/TradingPro.jsx:296 | the clamp gives a valid index and leaves a valid index unchanged |
| `Chart.ClampIndexMonotone` | frontend/src/pages/TradingPro.jsx:296 | the clamp preserves order |
| `Chart.ScaledOffsetMonotone` | frontend/src/pages/TradingPro.jsx:294-295 | the clamped, scaled and floored cursor offset grows with the cursor |
| `Chart.HoverMonotone` | frontend/src/pages/TradingPro.jsx:300-313 | moving the cursor or touch right never selects an earlier candle |
| `Chart.HoverInColumn` | frontend/src/pages/TradingPro.jsx:286-297 | inside the plot the selected candle is the one whose column holds the cursor |
| `Countdown.NatToString` | frontend/src/pages/HomeGoldMiracle.jsx:64 | `String(n)` is decimal digits with no leading zero; one digit exactly below 10, at most two exactly below 100 |
| `Countdown.NatToStringValue` | frontend/src/pages/HomeGoldMiracle.jsx:64 | the decimal string reads back as the number |
| `Countdown.PadStart` | frontend/src/pages/HomeGoldMiracle.jsx:64 | `padStart` fills on the left up to the width and keeps the string as its suffix |
| `Countdown.LeadingZeros` | frontend/src/pages/HomeGoldMiracle.jsx:64 | zero padding does not change a digit string's value |
| `Countdown.FormatParse` | frontend/src/pages/HomeGoldMiracle.jsx:61-65 | round trip: every `formatMMSS` display reads back as the number of seconds it shows |
| `Countdown.FormatShape` | frontend/src/pages/HomeGoldMiracle.jsx:61-65 | below 100 minutes the display has exactly five characters with the colon in the middle |
| `Countdown.Tick` | frontend/src/pages/HomeGoldMiracle.jsx:186 | the countdown stays in 1..15, counts down, and restarts at 15 after 1 |
| `Countdown.TicksFromFifteen` | frontend/src/pages/HomeGoldMiracle.jsx:183-186 | from 15, after `k` seconds the countdown shows `15 - k mod 15` |
| `Countdown.LiveJoinedBounds` | frontend/src/pages/HomeGoldMiracle.jsx:182-187 | the joined counter never falls and grows by at most one a second; exactly one a second when every draw hits, not at all when none does |
| `Countdown.LiveJoinedMonotone` | frontend/src/pages/HomeGoldMiracle.jsx:187 | a later reading of the counter is at least an earlier one |
| `Depth.TotalQtyNonNegative` | frontend/src/pages/TradingPro.jsx:594-595 | the quantity total of a side with non-negative quantities is non-negative |
| `Depth.MeterShares` | frontend/src/pages/TradingPro.jsx:594-598 | the two shares add up to 100; with non-negative quantities each is in [0, 100] and the bid share is the bid quantity's share of the total |
| `Depth.MeterEmptyBook` | frontend/src/pages/TradingPro.jsx:596-598 | a book with no quantity shows 0% bids and 100% asks |
| `Depth.MeterSeventyThirty` | frontend/src/pages/TradingPro.jsx:594-598 | bid quantity 70 against ask quantity 30 shows 70% and 30% |
| `Depth.MeterSpread` | frontend/src/pages/TradingPro.jsx:588-592 | the shown bid and ask are the book top's (`Number(x) || 0`, NaN as 0); mid, spread and spread percent are 0 unless both are non-zero; otherwise the spread is ask minus bid, the mid is half-way and the spread percent is the spread relative to the mid |
| `Depth.MeterWidth` | frontend/src/pages/TradingPro.jsx:958-959 | a meter segment shows an in-range share as is, 0 for a negative share and 100 for a share above 100 |
| `Depth.MaxQty` | frontend/src/pages/TradingPro.jsx:647-650 | the ladder's scale is at least 1, bounds every row's quantity and equals one of them when above 1 |
| `Depth.RowWidthBounds` | frontend/src/pages/TradingPro.jsx:977 | every row with a non-negative quantity gets a width of 0 to 100 percent, and the largest row gets 100 |
| `AuthForms.SignupCanSubmitSpec` | frontend/src/pages/Signup.jsx:19-27 | sign-up is allowed exactly when name, email and password are not blank and both passwords are typed and equal |
| `AuthForms.LoginCanSubmitSpec` | src/pages/Login.jsx:17-21 | login is allowed exactly when email and password are not blank |
| `AuthForms.SignupImpliesLogin` | frontend/src/pages/Signup.jsx:21-27 | whatever may sign up may also log in |
| `AuthForms.ConfirmFieldClassSpec` | frontend/src/pages/Signup.jsx:125 | the confirmation field is "good" when the passwords match, "bad" when a confirmation is typed that does not match, and plain while empty |
| `AuthForms.Submit` | frontend/src/pages/Signup.jsx:29-32 | a submission is ignored unless the form is valid and not already busy, and then only the busy flag changes |
| `AuthForms.SubmitOnce` | src/pages/Login.jsx:23-35 | a second submit while busy does nothing; a valid submit only marks the form busy, leaving the auth flag as it was until the timer fires, and then ends signed in on the trading page |
| `GoldMining.Selected` | frontend/src/pages/GoldMining.jsx:116-117 | the selected tier is the one with the key, or the first tier for an unknown key |
| `GoldMining.ProjectMatchesCard` | frontend/src/pages/GoldMining.jsx:120-122 | for any tier, the projected daily figure is the card's "Est / day", and a hundred of it is entry times daily rate; weekly is 7 days of it and monthly 30 |
| `GoldMining.EstimatorMatchesCard` | frontend/src/pages/GoldMining.jsx:120-122 | the estimator's daily figure is the selected card's "Est / day"; weekly is 7 days of it and monthly 30 |
| `GoldMining.InitialEstimate` | frontend/src/pages/GoldMining.jsx:116-122 | the page opens on the Starter Rig at 0.30 a day, 2.10 a week and 9.00 a month |
| `GoldMining.SelectEachTier` | frontend/src/pages/GoldMining.jsx:51-117 | every tier's key selects that tier |
| `GoldMining.KeysDistinct` | frontend/src/pages/GoldMining.jsx:51-111 | no two tiers share a key |
| `GoldMining.TiersAscend` | frontend/src/pages/GoldMining.jsx:51-111 | later tiers have a higher entry, a higher daily rate and a higher daily estimate |
| `JsArray.Find` | src/pages/MiningPackages.jsx:87-90 | `find` gives the first element satisfying the predicate, and nothing exactly when none does |
| `JsArray.Filter` | frontend/src/pages/TradingPro.jsx:388 | `filter` keeps only elements satisfying the predicate and never grows the list |
| `JsArray.FilterAppend` | frontend/src/pages/TradingPro.jsx:388 | filtering a concatenation is concatenating the filtered parts, so kept elements stay in input order |
| `JsArray.FilterCount` | frontend/src/pages/TradingPro.jsx:388 | each element satisfying the predicate is kept as many times as the input holds it, and any other element not at all |
| `JsArray.FilterMembers` | frontend/src/pages/TradingPro.jsx:583 | `filter` keeps exactly the elements that satisfy the predicate and invents none |
| `JsNum.Floor` | frontend/src/pages/TradingPro.jsx:295 | `Math.floor` is the greatest integer not above its argument |
| `JsNum.Round` | frontend/src/pages/TradingPro.jsx:977 | `Math.round` is within one half of its argument, with halves going up |
| `JsString.TrimStart` | frontend/src/pages/TradingPro.jsx:581 | the leading white space is removed and nothing else |
| `JsString.TrimEnd` | frontend/src/pages/TradingPro.jsx:581 | the trailing white space is removed and nothing else |
| `JsString.Trim` | frontend/src/pages/TradingPro.jsx:581 | `trim` is empty exactly for a blank string; otherwise it removes exactly the leading and trailing white space |
| `JsString.ToUpper` | frontend/src/pages/TradingPro.jsx:581 | `toUpperCase` keeps the length and leaves no lower-case ASCII letter |
| `JsString.IncludesIffOccurs` | frontend/src/pages/TradingPro.jsx:583 | `includes` holds exactly when the substring occurs at some position |
| `JsString.Words` | frontend/src/pages/StarterRig.jsx:64 | `split(/\s+/).filter(Boolean)` yields non-empty words free of white space |
| `JsString.WordsEmptyIffBlank` | frontend/src/pages/StarterRig.jsx:64 | a string has no words exactly when it is blank, and the first word starts at the first non-space character |
| `JsString.WordsOfJoin` | frontend/src/pages/StarterRig.jsx:64 | round trip: splitting the single-space join of words gives the words back |
| `JsString.TrimOfJoin` | frontend/src/pages/StarterRig.jsx:63 | a single-space join of words has nothing to trim |
| `JsString.TruthyParts` | frontend/src/pages/TradingPro.jsx:22 | `filter(Boolean)` keeps every non-empty string among the parts and nothing else, and never grows the list |
| `JsString.ClsEmpty` | frontend/src/pages/TradingPro.jsx:21-23 | `cls` is empty exactly when every part is falsy |
| `JsString.ClsRoundTrip` | frontend/src/pages/Signup.jsx:5-7 | round trip: for space-free parts, splitting the class string gives the truthy parts back |
| `JsString.OrChainFirstTruthy` | frontend/src/pages/StarterRig.jsx:28-29 | `a || b || fallback` is the first non-empty string, or the fallback when there is none |
| `MiningPackages.Clamp` | src/pages/MiningPackages.jsx:12-15 | the result lies in the range, equals an in-range input, pins out-of-range inputs to the nearer end, and treats a non-finite input as 0, so it gives 0, the minimum or the maximum according to where 0 lies |
| `MiningPackages.InitialSelection` | src/pages/MiningPackages.jsx:84 | the page opens on the first recommended package, or the first package when none is recommended or its id is empty |
| `MiningPackages.SelectedPackage` | src/pages/MiningPackages.jsx:87-90 | the selected package has the selected id, or is the first package for an unknown id |
| `MiningPackages.InitialSelectionIsCore` | src/pages/MiningPackages.jsx:23-84 | the page opens on the Core Miner, the recommended package |
| `MiningPackages.PackagesWellFormed` | src/pages/MiningPackages.jsx:23-60 | every package has a non-empty range starting above 0, and the ids are distinct |
| `MiningPackages.UseMinimumEnablesProceed` | src/pages/MiningPackages.jsx:348-355 | for every package, "Use Minimum" sets its minimum, which enables Proceed |
| `MiningPackages.InitialAmountEnablesProceed` | src/pages/MiningPackages.jsx:84-96 | the starting amount of 1500 is in the Core Miner's range |
| `MiningPackages.CardMatchesCalculator` | src/pages/MiningPackages.jsx:189-190 | a card's total return percent equals the calculator's ROI for any positive amount |
| `MiningPackages.TotalAppend` | src/pages/MiningPackages.jsx:113-114 | the reduce over a concatenation is the sum of the two reduces |
| `MiningPackages.TotalBoundsTerms` | src/pages/MiningPackages.jsx:113-114 | a total of non-negative amounts is non-negative and bounds each amount |
| `MiningPackages.DemoSummary` | src/pages/MiningPackages.jsx:62-119 | the demo portfolio holds 3,100 of principal and 317.60 accrued |
| `StarterRig.RigRange` | frontend/src/pages/StarterRig.jsx:43-74 | Proceed is enabled exactly for amounts from 100 to 999 |
| `StarterRig.InitialAndMinimum` | frontend/src/pages/StarterRig.jsx:308-313 | the page opens with Proceed disabled, since 1500 is above the maximum, and "Use Minimum" enables it |
| `StarterRig.TotalReturnPct` | frontend/src/pages/StarterRig.jsx:83 | the advertised total return is 27% |
| `StarterRig.TotalReturnIsRoi` | frontend/src/pages/StarterRig.jsx:70-83 | the advertised total return is the calculator's ROI for every positive amount |
| `StarterRig.LoggedInUser` | frontend/src/pages/StarterRig.jsx:17-34 | the user always has a non-empty name, and is the anonymous "User" when nothing is stored |
| `StarterRig.LoggedInUserPicks` | frontend/src/pages/StarterRig.jsx:20-30 | the record is read from the first stored value; the name is the first non-empty of name, username and full name, and the avatar likewise |
| `StarterRig.OrChainNonEmpty` | frontend/src/pages/StarterRig.jsx:28 | a chain ending in a non-empty fallback is non-empty |
| `StarterRig.Initials` | frontend/src/pages/StarterRig.jsx:62-68 | the initials are one or two characters with no lower-case ASCII letter |
| `StarterRig.InitialsOf` | frontend/src/pages/StarterRig.jsx:64-67 | from the word list, the initials are one or two characters with no lower-case ASCII letter |
| `StarterRig.InitialsSpec` | frontend/src/pages/StarterRig.jsx:62-68 | a blank name gives "U"; otherwise the first initial is the first visible character, upper-cased, and there are two initials exactly when there are two or more words |
| `StarterRig.InitialsOfWords` | frontend/src/pages/StarterRig.jsx:62-68 | a name of several single-spaced words gives the upper-cased first letters of its first and last words |
| `StarterRig.WordsOfTrimmedJoin` | frontend/src/pages/StarterRig.jsx:63-64 | trimming and splitting a single-spaced name gives its words back |
| `Tickers.Insert` | frontend/src/pages/TradingPro.jsx:398 | inserting into a list ranked by volume keeps it ranked and adds exactly that coin |
| `Tickers.SortByVolume` | frontend/src/pages/TradingPro.jsx:398 | the sort is a permutation ranked by non-increasing volume |
| `Tickers.SortIsStable` | frontend/src/pages/TradingPro.jsx:398 | the sort is stable: coins of equal volume keep their snapshot order |
| `Tickers.Take` | frontend/src/pages/TradingPro.jsx:399 | `slice(0, n)` is the first `n` elements, or all of them when there are fewer |
| `Tickers.MarketListShape` | frontend/src/pages/TradingPro.jsx:387-399 | the market list has exactly 40 coins, or all listed ones when fewer, all USDT pairs that are not leveraged tokens, ranked by volume and drawn from the snapshot |
| `Tickers.MarketListKeepsTop` | frontend/src/pages/TradingPro.jsx:398-399 | a listed coin left out of the market list has no more volume than any coin in it |
| `Tickers.TickerMap` | frontend/src/pages/TradingPro.jsx:403-405 | the map's keys are exactly the list's symbols, and each maps to a coin of the list with that symbol |
| `Tickers.TickerMapLastWins` | frontend/src/pages/TradingPro.jsx:403-404 | a later row with a repeated symbol overwrites an earlier one: each symbol maps to its last row |
| `Tickers.OnTickers` | frontend/src/pages/TradingPro.jsx:387-409 | a failed poll keeps all data and raises the banner; a snapshot rebuilds the list and map, keeps a still-listed selection, otherwise falls back to the first coin's symbol, and keeps the selection when the new list is empty |
| `Tickers.LastPriceAfterPoll` | frontend/src/pages/TradingPro.jsx:424-425 | after a snapshot the header shows the last price of a coin of the new list with the selected symbol, or 0 when the list is empty; after a failed poll it shows the same price as before |
| `Tickers.FilterCoins` | frontend/src/pages/TradingPro.jsx:580-584 | a blank query shows every coin; otherwise exactly the coins whose symbol contains the trimmed, upper-cased query, each as often as in the list |
| `Tickers.FilterCoinsAppend` | frontend/src/pages/TradingPro.jsx:580-584 | searching two parts of the list is searching each, so matches keep the list's order |
| `OrderTicket.TotalSpec` | frontend/src/pages/TradingPro.jsx:611-612 | the fee is 0.1% of the value; an UP order costs value plus fee, and a DOWN order returns value minus fee, never below 0 |
| `OrderTicket.CanSubmitSpec` | frontend/src/pages/TradingPro.jsx:614-623 | an order may be placed exactly when the amount is positive, a limit order has a positive price, and an UP order's total is within the balance |
| `OrderTicket.MarketOrderWithoutPrice` | frontend/src/pages/TradingPro.jsx:603-633 | nothing checks the market price: with no ticker loaded (last price 0) a positive market order of either side may still be placed, and is recorded in the history at price 0 |
| `OrderTicket.EstValueOfPlacedOrder` | frontend/src/pages/TradingPro.jsx:603-641 | a placed order's price times amount is the estimated value the ticket showed |
| `OrderTicket.PlaceOrder` | frontend/src/pages/TradingPro.jsx:625-641 | an invalid ticket changes nothing; a market order is recorded as filled at the last price at the head of the history; a limit order is put at the head of the open orders; in both cases the amount is cleared, so the same ticket cannot be placed again |
| `OrderTicket.CancelOrder` | frontend/src/pages/TradingPro.jsx:643-645 | cancelling removes exactly the open orders with that id and keeps the others |
| `OrderTicket.CancelOrderIsFilter` | frontend/src/pages/TradingPro.jsx:643-645 | cancelling is `filter` by a different id, and keeps every other order as often as it was open |
| `OrderTicket.CancelOrderAppend` | frontend/src/pages/TradingPro.jsx:643-645 | cancelling over two parts of the list cancels in each, so the kept orders stay in order |
| `OrderTicket.LeverageDown` | frontend/src/pages/TradingPro.jsx:680 | the "-" button lowers the leverage by exactly one above 1x and gives 1x at or below it |
| `OrderTicket.LeverageUp` | frontend/src/pages/TradingPro.jsx:684 | the "+" button raises the leverage by exactly one below 50x and gives 50x at or above it |
| `OrderTicket.LeverageSteps` | frontend/src/pages/TradingPro.jsx:680-684 | inside the range the two buttons undo each other, and at the ends they stick |
| `Yield.CalcSpec` | src/pages/MiningPackages.jsx:92-110 | in range means between min and max; daily profit is the daily percent of the amount, total profit that over the duration, total return the amount plus the profit, and ROI is daily percent times days for a positive amount and 0 otherwise; a non-finite amount counts as 0 |
| `Yield.ProceedIffInRange` | src/pages/MiningPackages.jsx:348 | with a positive minimum, Proceed is enabled exactly when the amount is a number within the range |

## Left out

- Network, WebSocket and timers are not modelled. The snapshot, the kline messages, the poll results and the timer firings are parameters of the functions that consume them.
- Canvas drawing is not modelled: colours, fonts, grid lines and the text layout of the tooltip. Only the geometry the drawing code computes is modelled.
- The tooltip's flip to the left of the crosshair near the right edge is not modelled.
- Number formatting (`toLocaleString`, `Intl.NumberFormat`, `toFixed`) is not modelled.
- Random order ids and the random bump of the joined counter are parameters.
- localStorage and `JSON.parse` are parameters. `LoggedInUser` takes the three stored strings and a parse function. A record field that is not a string is modelled as absent.
- Floating point is not modelled. Numbers are exact reals, so float rounding and infinities are outside the model. NaN is `None`.
- `StarterRig.TotalReturnIsRoi`: holds over exact reals only. In double arithmetic the calculator's ROI for an amount of 102 is 27.000000000000007, not the advertised 27.
- `MiningPackages.CardMatchesCalculator`: holds over exact reals only. Double rounding, which the model does not represent, may make the calculator's ROI differ from the card's percent in the last digits.
- `StarterRig.Initials`: strings are sequences of Unicode code points, not UTF-16 code units. For a name whose first character lies outside the Basic Multilingual Plane (an emoji), the model takes the whole character where the page takes a lone surrogate.
- `StarterRig.InitialsSpec`: states the first initial in code points, for the same reason.
- Snapshot and kline fields are assumed to parse as numbers. A NaN from `Number(...)` in a `Coin` or `Candle` field is not modelled.
- `JsString.TruthyParts`: states which strings are kept, not their order or count. Class order does not matter to the browser.
- `JsString.ToUpper`: only maps the ASCII letters a to z. The full Unicode case mapping of `toUpperCase` (e.g. "ß" to "SS") is not modelled.
- The limit-price hint is not modelled. The hint is filled from the newest close on each message and on the initial load.
- The leverage range slider is not modelled. It sets any value from 1 to 50 directly; only the two stepper buttons are modelled.
- `Countdown.FormatParse`: covers non-negative second counts only. The countdown never holds a negative value.
- Page routing (src/App.jsx), navigation and the layout of the pages are not modelled.
- Unsubscribing from a stream when the symbol or interval changes is not modelled. Stale messages after a change are not modelled either.
- The order-book poll's replacement of the book and best prices is not modelled; the depth meter and ladder take the current book as a parameter.

=== FILE: candles.dfy ===
/** The chart's candle series on the trading page and the update the kline
    stream handler applies to it (frontend/src/pages/TradingPro.jsx). */
module Candles {
  import opened Wrappers

  /** One kline: open time `t` in milliseconds, open/high/low/close prices,
      and the stream's `x` flag (whether the interval has closed). */
  datatype Candle = Candle(t: int, o: real, h: real, l: real, c: real, closed: bool)

  /** How many candles the live series keeps (`next.slice(-120)`). */
  const Capacity: nat := 120

  /** `s.slice(-n)` for n > 0: the last `n` elements, or all of them when there are fewer. */
  function KeepLast<T>(s: seq<T>, n: nat): (r: seq<T>)
    ensures |r| <= n && |r| <= |s|
    ensures |r| == |s| || |r| == n
    ensures r == s[|s| - |r|..]
  {
    if |s| <= n then s else s[|s| - n..]
  }

  /** The open time of the newest candle, if any. */
  function LastTime(s: seq<Candle>): Option<int> {
    if s == [] then None else Some(s[|s| - 1].t)
  }

  /** The series after one stream message: a candle with the same open time
      as the newest one replaces it; any other candle (older ones included,
      there is no ordering guard) is appended and the oldest candles beyond
      the capacity are dropped. */
  function Merge(prev: seq<Candle>, candle: Candle): (next: seq<Candle>)
    ensures |next| > 0 && next[|next| - 1] == candle
    ensures LastTime(prev) == Some(candle.t) ==>
              |next| == |prev| && next[..|prev| - 1] == prev[..|prev| - 1]
    ensures LastTime(prev) != Some(candle.t) ==>
              && |next| == (if |prev| + 1 <= Capacity then |prev| + 1 else Capacity)
              && next == (prev + [candle])[|prev| + 1 - |next|..]
  {
    if |prev| == 0 then [candle]
    else if prev[|prev| - 1].t == candle.t then prev[..|prev| - 1] + [candle]
    else KeepLast(prev + [candle], Capacity)
  }

  /** The series after a run of stream messages, applied in arrival order. */
  function MergeAll(prev: seq<Candle>, updates: seq<Candle>): seq<Candle>
    decreases |updates|
  {
    if updates == [] then prev
    else MergeAll(Merge(prev, updates[0]), updates[1..])
  }

  /** The series after the initial kline request: the response on success,
      and an empty series when the request fails. */
  function LoadInitial(response: Option<seq<Candle>>): (s: seq<Candle>)
    ensures response.None? ==> s == []
    ensures response.Some? ==> s == response.value
  {
    response.GetOr([])
  }

  /** A series of at most `Capacity` candles stays within the bound, whatever messages arrive. */
  lemma {:induction false} MergeAllBounded(prev: seq<Candle>, updates: seq<Candle>)
    requires |prev| <= Capacity
    ensures |MergeAll(prev, updates)| <= Capacity
    decreases |updates|
  {
    if updates != [] {
      MergeAllBounded(Merge(prev, updates[0]), updates[1..]);
    }
  }

  /** The series the page shows once the initial request has answered and
      stream messages have arrived: a response of at most `Capacity` candles
      (the request asks for 120) stays within the bound, and after a failed
      request the first message starts a series of its own. */
  lemma LoadThenStream(response: Option<seq<Candle>>, updates: seq<Candle>)
    requires response.Some? ==> |response.value| <= Capacity
    ensures |MergeAll(LoadInitial(response), updates)| <= Capacity
    ensures response.None? && updates != [] ==>
              MergeAll(LoadInitial(response), updates[..1]) == updates[..1]
  {
    MergeAllBounded(LoadInitial(response), updates);
    if response.None? && updates != [] {
      MergeAllStep([], updates[..1]);
      assert updates[..1][1..] == [];
    }
  }

  /** Of several updates with one open time, the latest one wins: merging
      `c1` and then `c2` with the same open time equals merging `c2` alone.
      In particular re-delivering a message changes nothing. */
  lemma MergeLatestWins(prev: seq<Candle>, c1: Candle, c2: Candle)
    requires c1.t == c2.t
    ensures Merge(Merge(prev, c1), c2) == Merge(prev, c2)
  {
    var m := Merge(prev, c1);
    assert LastTime(m) == Some(c2.t);
    if |prev| > 0 && prev[|prev| - 1].t != c1.t {
      var a := prev + [c1];
      var b := prev + [c2];
      var k := |a| - |m|;
      assert m[..|m| - 1] == b[k..|b| - 1];
      assert Merge(prev, c2) == b[k..];
      assert b[k..] == b[k..|b| - 1] + [c2];
    }
  }

  /** Open times strictly increase along the series. */
  predicate Ascending(s: seq<Candle>) {
    forall i, j :: 0 <= i < j < |s| ==> s[i].t < s[j].t
  }

  /** A message for the newest interval or a later one keeps the series in
      ascending time order. */
  lemma MergeKeepsAscending(prev: seq<Candle>, candle: Candle)
    requires Ascending(prev)
    requires prev == [] || prev[|prev| - 1].t <= candle.t
    ensures Ascending(Merge(prev, candle))
  {
    var next := Merge(prev, candle);
    if LastTime(prev) == Some(candle.t) {
      AscendingAppend(prev[..|prev| - 1], candle);
    } else {
      AscendingAppend(prev, candle);
      AscendingSuffix(prev + [candle], |prev| + 1 - |next|);
    }
  }

  lemma AscendingAppend(s: seq<Candle>, candle: Candle)
    requires Ascending(s)
    requires s == [] || s[|s| - 1].t < candle.t
    ensures Ascending(s + [candle])
  {
    var a := s + [candle];
    forall i, j | 0 <= i < j < |a|
      ensures a[i].t < a[j].t
    {
      if j == |s| && i < |s| - 1 {
        assert s[i].t < s[|s| - 1].t;
      }
    }
  }

  lemma AscendingSuffix(s: seq<Candle>, k: nat)
    requires Ascending(s) && k <= |s|
    ensures Ascending(s[k..])
  {
    var r := s[k..];
    forall i, j | 0 <= i < j < |r|
      ensures r[i].t < r[j].t
    {
      assert r[i] == s[k + i] && r[j] == s[k + j];
    }
  }

  /** There is no ordering guard: a message older than the newest candle is
      appended after it, and the series is no longer in time order. */
  lemma OlderCandleIsAppended()
    ensures var prev := [Candle(200, 1.0, 1.0, 1.0, 1.0, true)];
            var older := Candle(100, 2.0, 2.0, 2.0, 2.0, true);
            && Ascending(prev)
            && Merge(prev, older) == prev + [older]
            && !Ascending(Merge(prev, older))
  {
    var prev := [Candle(200, 1.0, 1.0, 1.0, 1.0, true)];
    var older := Candle(100, 2.0, 2.0, 2.0, 2.0, true);
    assert LastTime(prev) == Some(200);
    MergeAppends(prev, older);
    var next := prev + [older];
    assert next[0].t == 200 && next[1].t == 100;
  }

  /** Below capacity, a candle for a new open time is simply appended. */
  lemma MergeAppends(prev: seq<Candle>, candle: Candle)
    requires LastTime(prev) != Some(candle.t) && |prev| < Capacity
    ensures Merge(prev, candle) == prev + [candle]
  {
  }

  /** A candle for the newest open time replaces the newest candle. */
  lemma MergeReplaces(prev: seq<Candle>, candle: Candle)
    requires LastTime(prev) == Some(candle.t)
    ensures Merge(prev, candle) == prev[..|prev| - 1] + [candle]
  {
  }

  /** Updates for open times 100, 100, 200, 200, 300 leave three candles,
      each holding the latest update for its open time. */
  lemma RepeatedUpdatesScenario(a1: Candle, a2: Candle, b1: Candle, b2: Candle, c: Candle)
    requires a1.t == 100 && a2.t == 100 && b1.t == 200 && b2.t == 200 && c.t == 300
    ensures MergeAll([], [a1, a2, b1, b2, c]) == [a2, b2, c]
  {
    var s1 := [a1];
    MergeAppends([], a1);
    assert [] + [a1] == s1;
    var s2 := [a2];
    MergeReplaces(s1, a2);
    assert s1[..0] + [a2] == s2;
    var s3 := [a2, b1];
    MergeAppends(s2, b1);
    assert s2 + [b1] == s3;
    var s4 := [a2, b2];
    MergeReplaces(s3, b2);
    assert s3[..1] + [b2] == s4;
    var s5 := [a2, b2, c];
    MergeAppends(s4, c);
    assert [a1, a2, b1, b2, c][1..] == [a2, b1, b2, c];
    assert [a2, b1, b2, c][1..] == [b1, b2, c];
    assert [b1, b2, c][1..] == [b2, c];
    assert [b2, c][1..] == [c];
    assert [c][1..] == [];
    MergeAllStep([], [a1, a2, b1, b2, c]);
    MergeAllStep(s1, [a2, b1, b2, c]);
    MergeAllStep(s2, [b1, b2, c]);
    MergeAllStep(s3, [b2, c]);
    MergeAllStep(s4, [c]);
    assert s4 + [c] == s5;
    calc {
      MergeAll([], [a1, a2, b1, b2, c]);
      MergeAll(s1, [a2, b1, b2, c]);
      MergeAll(s2, [b1, b2, c]);
      MergeAll(s3, [b2, c]);
      MergeAll(s4, [c]);
      MergeAll(s5, []);
      s5;
    }
  }

  lemma MergeAllStep(prev: seq<Candle>, updates: seq<Candle>)
    requires updates != []
    ensures MergeAll(prev, updates) == MergeAll(Merge(prev, updates[0]), updates[1..])
  {
  }
}

=== FILE: chart.dfy ===
/** Geometry of the candlestick canvas on the trading page: the vertical
    price scale, candle columns, body sizes, the live-price tag and the
    cursor-to-candle mapping (frontend/src/pages/TradingPro.jsx). Lengths
    are CSS pixels. */
module Chart {
  import opened Wrappers
  import opened JsNum
  import opened Candles

  const PadL: real := 46.0
  const PadR: real := 16.0
  const PadT: real := 16.0
  const PadB: real := 28.0

  /** Plot width inside the paddings, never below 10. */
  function InnerW(w: real): real {
    Max(10.0, w - PadL - PadR)
  }

  /** Plot height inside the paddings, never below 10. */
  function InnerH(h: real): real {
    Max(10.0, h - PadT - PadB)
  }

  /** `Math.min(...lows)` over a non-empty series. */
  function MinLow(s: seq<Candle>): (m: real)
    requires s != []
    ensures forall k :: 0 <= k < |s| ==> m <= s[k].l
    ensures exists k :: 0 <= k < |s| && s[k].l == m
  {
    if |s| == 1 then s[0].l
    else
      var m := MinLow(s[1..]);
      assert forall k :: 1 <= k < |s| ==> s[k] == s[1..][k - 1];
      Min(s[0].l, m)
  }

  /** `Math.max(...highs)` over a non-empty series. */
  function MaxHigh(s: seq<Candle>): (m: real)
    requires s != []
    ensures forall k :: 0 <= k < |s| ==> s[k].h <= m
    ensures exists k :: 0 <= k < |s| && s[k].h == m
  {
    if |s| == 1 then s[0].h
    else
      var m := MaxHigh(s[1..]);
      assert forall k :: 1 <= k < |s| ==> s[k] == s[1..][k - 1];
      Max(s[0].h, m)
  }

  /** A candle whose low and high bound its open and close. */
  predicate WellFormed(cd: Candle) {
    cd.l <= cd.o <= cd.h && cd.l <= cd.c <= cd.h
  }

  predicate AllWellFormed(s: seq<Candle>) {
    forall k :: 0 <= k < |s| ==> WellFormed(s[k])
  }

  /** The vertical scale of one frame: lowest low, highest high, the span
      between them (`max - min || 1`) and the plot height. */
  datatype Scale = Scale(lo: real, hi: real, span: real, innerH: real)

  /** The scale for a canvas `h` pixels high; an empty series has none (the
      canvas shows its loading message instead). */
  function VerticalScale(candles: seq<Candle>, h: real): (sc: Option<Scale>)
    ensures sc.None? <==> candles == []
    ensures sc.Some? ==> sc.value.innerH >= 10.0 && sc.value.span != 0.0
    ensures sc.Some? ==> sc.value.lo == MinLow(candles) && sc.value.hi == MaxHigh(candles)
    ensures sc.Some? ==> forall k :: 0 <= k < |candles| ==>
              sc.value.lo <= candles[k].l && candles[k].h <= sc.value.hi
    ensures sc.Some? && AllWellFormed(candles) ==>
              && sc.value.lo <= sc.value.hi && sc.value.span > 0.0
              && (sc.value.hi == sc.value.lo ==> sc.value.span == 1.0)
              && (sc.value.hi > sc.value.lo ==> sc.value.span == sc.value.hi - sc.value.lo)
  {
    if candles == [] then None
    else
      var lo := MinLow(candles);
      var hi := MaxHigh(candles);
      assert AllWellFormed(candles) ==> candles[0].l <= candles[0].h;
      Some(Scale(lo, hi, if hi - lo == 0.0 then 1.0 else hi - lo, InnerH(h)))
  }

  /** `yOf(price)`: the pixel row of a price. */
  function YOf(sc: Scale, price: real): real
    requires sc.span != 0.0
  {
    PadT + (sc.hi - price) / sc.span * sc.innerH
  }

  /** On the drawn chart the series' highest high sits on the top padding
      and, when the series has a real range, its lowest low on the bottom of
      the plot. */
  lemma ChartEndpoints(candles: seq<Candle>, h: real)
    requires candles != [] && AllWellFormed(candles)
    ensures var sc := VerticalScale(candles, h).value;
            && YOf(sc, MaxHigh(candles)) == PadT
            && (MaxHigh(candles) > MinLow(candles) ==> YOf(sc, MinLow(candles)) == PadT + sc.innerH)
  {
    var sc := VerticalScale(candles, h).value;
    YOfScale(sc, sc.lo, sc.hi);
  }

  /** The highest high sits on the top padding, the lowest low on the bottom
      of the plot, and a lower price never sits above a higher one. */
  lemma YOfScale(sc: Scale, p: real, q: real)
    requires sc.span > 0.0 && sc.innerH > 0.0
    requires sc.hi > sc.lo ==> sc.span == sc.hi - sc.lo
    ensures YOf(sc, sc.hi) == PadT
    ensures sc.hi > sc.lo ==> YOf(sc, sc.lo) == PadT + sc.innerH
    ensures p <= q ==> YOf(sc, q) <= YOf(sc, p)
  {
    if p <= q {
      var d := (q - p) / sc.span;
      assert d * sc.span == q - p;
      assert d >= 0.0;
      assert (sc.hi - p) / sc.span - (sc.hi - q) / sc.span == d;
      assert YOf(sc, p) - YOf(sc, q) == d * sc.innerH;
    }
  }

  /** Every price of a well-formed series is drawn inside the plot rows. */
  lemma YOfInsidePlot(candles: seq<Candle>, h: real, k: nat, price: real)
    requires AllWellFormed(candles) && k < |candles|
    requires price == candles[k].l || price == candles[k].o || price == candles[k].c || price == candles[k].h
    ensures var sc := VerticalScale(candles, h).value;
            PadT <= YOf(sc, price) <= PadT + sc.innerH
  {
    var sc := VerticalScale(candles, h).value;
    assert sc.lo <= price <= sc.hi;
    YOfScale(sc, price, sc.hi);
    if sc.hi > sc.lo {
      YOfScale(sc, sc.lo, price);
    }
  }

  /** Width of one candle column. */
  function Step(innerW: real, n: nat): real
    requires n > 0
  {
    innerW / n as real
  }

  /** `bodyW`: 62% of the column, clamped to [4, 10] pixels. */
  function BodyWidth(innerW: real, n: nat): (bw: real)
    requires n > 0
    ensures 4.0 <= bw <= 10.0
    ensures 4.0 <= Step(innerW, n) * 0.62 <= 10.0 ==> bw == Step(innerW, n) * 0.62
    ensures Step(innerW, n) * 0.62 < 4.0 ==> bw == 4.0
    ensures Step(innerW, n) * 0.62 > 10.0 ==> bw == 10.0
  {
    Max(4.0, Min(10.0, Step(innerW, n) * 0.62))
  }

  /** `bh`: the body spans open to close but is never thinner than 2.5 pixels. */
  function BodyHeight(yO: real, yC: real): (bh: real)
    ensures bh >= 2.5
    ensures bh >= yO - yC && bh >= yC - yO
    ensures bh == 2.5 || bh == yO - yC || bh == yC - yO
  {
    Max(2.5, Max(yO, yC) - Min(yO, yC))
  }

  /** The centre of candle `i` (`padL + i * step + step * 0.5`). */
  function CandleX(innerW: real, n: nat, i: nat): real
    requires n > 0
  {
    PadL + i as real * Step(innerW, n) + Step(innerW, n) * 0.5
  }

  /** Candle centres lie inside the plot, left to right in series order. */
  lemma CandleXOrder(innerW: real, n: nat, i: nat, j: nat)
    requires innerW > 0.0 && i < j < n
    ensures PadL < CandleX(innerW, n, i) < CandleX(innerW, n, j) < PadL + innerW
  {
    var step := Step(innerW, n);
    assert step * n as real == innerW;
    assert step > 0.0;
    assert CandleX(innerW, n, j) - CandleX(innerW, n, i) == (j - i) as real * step;
    assert PadL + innerW - CandleX(innerW, n, j) == (n - j) as real * step - step * 0.5;
  }

  /** The live-price tag's top edge: 10 pixels above the price line, kept
      between 6 pixels under the top padding and 18 pixels (its height)
      above the bottom padding. */
  function TagY(h: real, yy: real): (ty: real)
    ensures ty >= PadT + 6.0
    ensures h - PadB - 18.0 >= PadT + 6.0 ==> ty + 18.0 <= h - PadB
    ensures PadT + 6.0 <= yy - 10.0 <= h - PadB - 18.0 ==> ty == yy - 10.0
    ensures yy - 10.0 < PadT + 6.0 ==> ty == PadT + 6.0
    ensures PadT + 6.0 <= h - PadB - 18.0 < yy - 10.0 ==> ty == h - PadB - 18.0
  {
    Max(PadT + 6.0, Min(h - PadB - 18.0, yy - 10.0))
  }

  /** The live-price line and tag are drawn only for a non-zero price. */
  function LiveTag(sc: Scale, h: real, livePrice: real): (ty: Option<real>)
    requires sc.span != 0.0
    ensures ty.None? <==> livePrice == 0.0
    ensures ty.Some? ==> ty.value >= PadT + 6.0
  {
    if livePrice == 0.0 then None else Some(TagY(h, YOf(sc, livePrice)))
  }

  /** The candle under a cursor `x` pixels from the left of a target
      `width` pixels wide: the offset is clamped to the plot, scaled to the
      series length, floored and clamped to a valid index (0 for an empty
      series, where no crosshair is drawn). */
  function HoverIndex(x: real, width: real, n: nat): (idx: int)
    ensures n > 0 ==> 0 <= idx < n
    ensures n == 0 ==> idx == 0
  {
    ClampIndex(ScaledOffset(x, width, n), n)
  }

  /** The cursor's offset clamped to the plot, scaled to `n` columns and
      floored, before the index clamp. */
  function ScaledOffset(x: real, width: real, n: nat): int {
    var innerW := InnerW(width);
    var rx := Max(0.0, Min(innerW, x - PadL));
    Floor(rx / innerW * n as real)
  }

  lemma ScaledOffsetMonotone(x1: real, x2: real, width: real, n: nat)
    requires x1 <= x2
    ensures ScaledOffset(x1, width, n) <= ScaledOffset(x2, width, n)
  {
    var innerW := InnerW(width);
    var r1 := Max(0.0, Min(innerW, x1 - PadL));
    var r2 := Max(0.0, Min(innerW, x2 - PadL));
    DivMonotone(r1, r2, innerW);
    MulMonotone(r1 / innerW, r2 / innerW, n as real);
    FloorMonotone(r1 / innerW * n as real, r2 / innerW * n as real);
  }

  /** `Math.max(0, Math.min(n - 1, i))`. */
  function ClampIndex(i: int, n: nat): (idx: int)
    ensures n > 0 ==> 0 <= idx < n
    ensures n == 0 ==> idx == 0
    ensures 0 <= i < n ==> idx == i
  {
    if n - 1 < i then (if n - 1 < 0 then 0 else n - 1) else (if i < 0 then 0 else i)
  }

  lemma ClampIndexMonotone(i: int, j: int, n: nat)
    requires i <= j
    ensures ClampIndex(i, n) <= ClampIndex(j, n)
  {
  }

  /** Moving the cursor right never selects an earlier candle. */
  lemma HoverMonotone(x1: real, x2: real, width: real, n: nat)
    requires x1 <= x2
    ensures HoverIndex(x1, width, n) <= HoverIndex(x2, width, n)
  {
    ScaledOffsetMonotone(x1, x2, width, n);
    ClampIndexMonotone(ScaledOffset(x1, width, n), ScaledOffset(x2, width, n), n);
  }

  /** Inside the plot, the chosen candle is the one whose column holds the
      cursor. */
  lemma HoverInColumn(x: real, width: real, n: nat)
    requires n > 0
    requires PadL <= x < PadL + InnerW(width)
    ensures var i := HoverIndex(x, width, n);
            var step := Step(InnerW(width), n);
            PadL + i as real * step <= x < PadL + i as real * step + step
  {
    var innerW := InnerW(width);
    var rx := x - PadL;
    assert Max(0.0, Min(innerW, x - PadL)) == rx;
    FloorColumn(rx, innerW, n);
    var i := Floor(rx / innerW * n as real);
    assert 0 <= i < n;
    assert ScaledOffset(x, width, n) == i;
    assert HoverIndex(x, width, n) == i;
    assert Step(innerW, n) == innerW / n as real;
  }

  /** Scaling an offset in [0, w) to n columns and flooring names the column
      that holds it. */
  lemma FloorColumn(rx: real, w: real, n: nat)
    requires 0.0 <= rx < w && n > 0
    ensures var i := Floor(rx / w * n as real);
            var step := w / n as real;
            0 <= i < n && i as real * step <= rx < i as real * step + step
  {
    var u := rx / w * n as real;
    var step := w / n as real;
    UnitScale(rx, w, n);
    var i := Floor(u);
    assert 0 <= i < n;
    assert step > 0.0 by {
      assert step * n as real == w;
    }
    ScaleBack(rx, w, n);
    ColumnBounds(u, step, rx, i);
  }

  lemma UnitScale(rx: real, w: real, n: nat)
    requires 0.0 <= rx < w && n > 0
    ensures 0.0 <= rx / w * n as real < n as real
  {
    var t := rx / w;
    assert t * w == rx;
    RatioInUnit(rx, w);
    DivMonotone(rx, w, w);
    assert t != 1.0;
    MulStrict(t, 1.0, n as real);
  }

  lemma ScaleBack(rx: real, w: real, n: nat)
    requires w > 0.0 && n > 0
    ensures (rx / w * n as real) * (w / n as real) == rx
  {
    var t := rx / w;
    var step := w / n as real;
    assert t * w == rx;
    assert step * n as real == w;
    calc {
      (t * n as real) * step;
      t * (step * n as real);
      t * w;
    }
  }
}

=== FILE: countdown.dfy ===
/** The live activity widget on the home page
    (frontend/src/pages/HomeGoldMiracle.jsx): the sync countdown, its mm:ss
    rendering, and the joined-users counter. */
module Countdown {
  import opened Wrappers

  predicate IsDigit(c: char) {
    '0' <= c <= '9'
  }

  predicate AllDigits(s: string) {
    forall i :: 0 <= i < |s| ==> IsDigit(s[i])
  }

  function Digit(d: nat): (c: char)
    requires d < 10
    ensures IsDigit(c)
  {
    ('0' as int + d) as char
  }

  /** `String(n)` for a non-negative integer: decimal digits without leading zeros. */
  function NatToString(n: nat): (s: string)
    ensures |s| >= 1 && AllDigits(s)
    ensures s[0] == '0' ==> n == 0
    ensures n < 10 <==> |s| == 1
    ensures n < 100 <==> |s| <= 2
  {
    if n < 10 then [Digit(n)] else NatToString(n / 10) + [Digit(n % 10)]
  }

  /** The value of a string of decimal digits. */
  function DigitsValue(s: string): nat
    requires AllDigits(s)
  {
    if s == [] then 0
    else DigitsValue(s[..|s| - 1]) * 10 + (s[|s| - 1] as int - '0' as int)
  }

  /** Reading the decimal string back gives the number. */
  lemma {:induction false} NatToStringValue(n: nat)
    ensures DigitsValue(NatToString(n)) == n
  {
    if n >= 10 {
      var s := NatToString(n);
      assert s[..|s| - 1] == NatToString(n / 10);
      NatToStringValue(n / 10);
    }
  }

  /** `s.padStart(width, c)`. */
  function PadStart(s: string, width: nat, c: char): (r: string)
    ensures |r| == if |s| < width then width else |s|
    ensures r[|r| - |s|..] == s
    ensures forall i :: 0 <= i < |r| - |s| ==> r[i] == c
  {
    if |s| < width then seq(width - |s|, _ => c) + s else s
  }

  /** Leading zeros do not change a digit string's value. */
  lemma {:induction false} LeadingZeros(z: string, s: string)
    requires forall i :: 0 <= i < |z| ==> z[i] == '0'
    requires AllDigits(s)
    ensures AllDigits(z + s) && DigitsValue(z + s) == DigitsValue(s)
    decreases |z| + |s|
  {
    assert AllDigits(z + s);
    if s == [] {
      if z != [] {
        assert z + s == z;
        assert z[..|z| - 1] + [] == z[..|z| - 1];
        LeadingZeros(z[..|z| - 1], []);
      }
    } else {
      var t := s[..|s| - 1];
      assert (z + s)[..|z + s| - 1] == z + t;
      LeadingZeros(z, t);
    }
  }

  /** `formatMMSS`: whole minutes and the remaining seconds, each padded to two digits. */
  function FormatMMSS(total: nat): (r: string) {
    PadStart(NatToString(total / 60), 2, '0') + ":" + PadStart(NatToString(total % 60), 2, '0')
  }

  /** The index of the first occurrence of `c` in `s`, if any. */
  function IndexOf(s: string, c: char): (r: Option<nat>)
    ensures r.None? <==> c !in s
    ensures r.Some? ==> r.value < |s| && s[r.value] == c && c !in s[..r.value]
  {
    if s == [] then None
    else if s[0] == c then Some(0)
    else match IndexOf(s[1..], c)
      case None => None
      case Some(i) =>
        assert s[..i + 1] == [s[0]] + s[1..][..i];
        Some(i + 1)
  }

  /** Reads an "m:ss" display back into seconds: digits, a colon, and two
      digits below 60; anything else is None. */
  function ParseMMSS(s: string): Option<nat> {
    match IndexOf(s, ':')
    case None => None
    case Some(i) => ReadFields(s[..i], s[i + 1..])
  }

  /** The seconds shown by a minutes field and a seconds field. */
  function ReadFields(mm: string, ss: string): Option<nat> {
    if mm != [] && AllDigits(mm) && |ss| == 2 && AllDigits(ss) && DigitsValue(ss) < 60
    then Some(DigitsValue(mm) * 60 + DigitsValue(ss))
    else None
  }

  /** A number as `formatMMSS` writes each field. */
  function Field(n: nat): string {
    PadStart(NatToString(n), 2, '0')
  }

  /** Round trip: the display reads back as the number of seconds it shows. */
  lemma FormatParse(total: nat)
    ensures ParseMMSS(FormatMMSS(total)) == Some(total)
  {
    var m := total / 60;
    var sec := total % 60;
    var f := FormatMMSS(total);
    assert f == Field(m) + ":" + Field(sec);
    NoColon(Field(m), m);
    calc {
      ParseMMSS(f);
    ==
      ParseMMSS(Field(m) + ":" + Field(sec));
    == { ParseJoined(Field(m), Field(sec)); }
      ReadFields(Field(m), Field(sec));
    == { ReadFieldsOfFields(m, sec); }
      Some(m * 60 + sec);
    == { assert m * 60 + sec == total; }
      Some(total);
    }
  }

  lemma NoColon(f: string, n: nat)
    requires f == Field(n)
    ensures ':' !in f
  {
    PadDigits(NatToString(n), n);
    assert forall i :: 0 <= i < |f| ==> IsDigit(f[i]);
  }

  lemma ReadFieldsOfFields(m: nat, sec: nat)
    requires sec < 60
    ensures ReadFields(Field(m), Field(sec)) == Some(m * 60 + sec)
  {
    var a := Field(m);
    var b := Field(sec);
    PadDigits(NatToString(m), m);
    PadDigits(NatToString(sec), sec);
    ReadValid(a, b, m, sec);
  }

  lemma ReadValid(a: string, b: string, m: nat, sec: nat)
    requires a != [] && AllDigits(a) && DigitsValue(a) == m
    requires |b| == 2 && AllDigits(b) && DigitsValue(b) == sec && sec < 60
    ensures ReadFields(a, b) == Some(m * 60 + sec)
  {
  }

  /** A display whose minutes field holds no colon splits at its colon. */
  lemma ParseJoined(mm: string, ss: string)
    requires ':' !in mm
    ensures ParseMMSS(mm + ":" + ss) == ReadFields(mm, ss)
  {
    var r := mm + ":" + ss;
    IndexOfSplit(mm, ss, ':');
    assert r[..|mm|] == mm && r[|mm| + 1..] == ss;
  }

  lemma IndexOfSplit(a: string, b: string, c: char)
    requires c !in a
    ensures IndexOf(a + [c] + b, c) == Some(|a|)
  {
    var r := a + [c] + b;
    assert r[|a|] == c && r[..|a|] == a;
  }

  lemma PadDigits(s: string, n: nat)
    requires s == NatToString(n)
    ensures var p := PadStart(s, 2, '0');
            AllDigits(p) && DigitsValue(p) == n
  {
    var p := PadStart(s, 2, '0');
    var z := p[..|p| - |s|];
    assert p == z + s;
    NatToStringValue(n);
    LeadingZeros(z, s);
  }

  /** Below 100 minutes the display is exactly "mm:ss". */
  lemma FormatShape(total: nat)
    requires total < 6000
    ensures |FormatMMSS(total)| == 5 && FormatMMSS(total)[2] == ':'
  {
    var m := total / 60;
    var sec := total % 60;
    assert m < 100 && sec < 100;
    PadTwo(m);
    PadTwo(sec);
    var a := PadStart(NatToString(m), 2, '0');
    var b := PadStart(NatToString(sec), 2, '0');
    assert FormatMMSS(total) == a + ":" + b;
  }

  lemma PadTwo(n: nat)
    requires n < 100
    ensures |PadStart(NatToString(n), 2, '0')| == 2
  {
  }

  /** One second of the sync countdown: it counts down and restarts at 15
      after reaching 1. */
  function Tick(s: int): (r: int)
    ensures 1 <= s <= 15 ==> 1 <= r <= 15
    ensures s > 1 ==> r < s
    ensures s <= 1 ==> r == 15
  {
    if s <= 1 then 15 else s - 1
  }

  /** The countdown after `k` seconds. */
  function Ticks(s: int, k: nat): int {
    if k == 0 then s else Tick(Ticks(s, k - 1))
  }

  /** Starting from 15, the countdown cycles with period 15. */
  lemma {:induction false} TicksFromFifteen(k: nat)
    ensures Ticks(15, k) == 15 - k % 15
  {
    if k > 0 {
      TicksFromFifteen(k - 1);
      var p := (k - 1) % 15;
      assert Ticks(15, k) == Tick(15 - p);
      StepMod(k - 1);
    }
  }

  lemma StepMod(n: nat)
    ensures (n + 1) % 15 == if n % 15 == 14 then 0 else n % 15 + 1
  {
    var q := n / 15;
    assert n == q * 15 + n % 15;
    if n % 15 == 14 {
      assert n + 1 == (q + 1) * 15;
    } else {
      assert n + 1 == q * 15 + (n % 15 + 1);
    }
  }

  /** The joined-users counter after a run of seconds, one bump per second
      in which the random draw exceeded 0.55. */
  function LiveJoined(v: int, bumps: seq<bool>): int
    decreases |bumps|
  {
    if bumps == [] then v
    else LiveJoined(v + (if bumps[0] then 1 else 0), bumps[1..])
  }

  /** The counter never decreases and grows by at most one per second. */
  lemma {:induction false} LiveJoinedBounds(v: int, bumps: seq<bool>)
    ensures v <= LiveJoined(v, bumps) <= v + |bumps|
    ensures (forall i :: 0 <= i < |bumps| ==> bumps[i]) ==> LiveJoined(v, bumps) == v + |bumps|
    ensures (forall i :: 0 <= i < |bumps| ==> !bumps[i]) ==> LiveJoined(v, bumps) == v
    decreases |bumps|
  {
    if bumps != [] {
      LiveJoinedBounds(v + (if bumps[0] then 1 else 0), bumps[1..]);
    }
  }

  /** Later readings of the counter are at least the earlier ones. */
  lemma {:induction false} LiveJoinedMonotone(v: int, a: seq<bool>, b: seq<bool>)
    ensures LiveJoined(v, a) <= LiveJoined(v, a + b)
    decreases |a|
  {
    if a == [] {
      assert a + b == b;
      LiveJoinedBounds(v, b);
    } else {
      assert (a + b)[1..] == a[1..] + b;
      LiveJoinedMonotone(v + (if a[0] then 1 else 0), a[1..], b);
    }
  }
}

=== FILE: depth.dfy ===
/** The depth meter and the order-book ladder of the trading page
    (frontend/src/pages/TradingPro.jsx). Prices and quantities are parsed
    numbers, None standing for NaN. */
module Depth {
  import opened Wrappers
  import opened JsNum

  /** The best bid and ask of the book-ticker poll. */
  datatype BookTop = BookTop(bid: Option<real>, ask: Option<real>)

  /** One ladder row `[price, qty]`. */
  datatype Level = Level(price: Option<real>, qty: Option<real>)

  /** The order-book poll: up to twelve levels a side. */
  datatype Book = Book(bids: seq<Level>, asks: seq<Level>)

  /** What the depth meter shows. */
  datatype DepthInfo = DepthInfo(bid: real, ask: real, mid: real, spread: real, spreadPct: real, bidPct: real, askPct: real)

  /** `rows.reduce((s, x) => s + (x[1] || 0), 0)`. */
  function TotalQty(rows: seq<Level>): real {
    if rows == [] then 0.0 else TotalQty(rows[..|rows| - 1]) + OrZero(rows[|rows| - 1].qty)
  }

  /** Every quantity of the side is a non-negative number or NaN. */
  predicate NonNegative(rows: seq<Level>) {
    forall k :: 0 <= k < |rows| ==> OrZero(rows[k].qty) >= 0.0
  }

  lemma {:induction false} TotalQtyNonNegative(rows: seq<Level>)
    requires NonNegative(rows)
    ensures TotalQty(rows) >= 0.0
  {
    if rows != [] {
      TotalQtyNonNegative(rows[..|rows| - 1]);
    }
  }

  /** The depth meter: mid, spread and spread percent need both a bid and an
      ask; the bid share is the bid quantity over the total, a zero total
      counting as 1 (`total || 1`), and the ask share is the rest of 100. */
  function Meter(top: BookTop, book: Book): DepthInfo {
    var bid := OrZero(top.bid);
    var ask := OrZero(top.ask);
    var mid := if bid != 0.0 && ask != 0.0 then (bid + ask) / 2.0 else 0.0;
    var spread := if bid != 0.0 && ask != 0.0 then ask - bid else 0.0;
    var spreadPct := if mid != 0.0 then spread / mid * 100.0 else 0.0;
    var bidQty := TotalQty(book.bids);
    var askQty := TotalQty(book.asks);
    var total := if bidQty + askQty == 0.0 then 1.0 else bidQty + askQty;
    var bidPct := bidQty / total * 100.0;
    DepthInfo(bid, ask, mid, spread, spreadPct, bidPct, 100.0 - bidPct)
  }

  /** The two shares always add up to 100; with non-negative quantities the
      bid share is in [0, 100] and is the bid quantity's share of the total. */
  lemma MeterShares(top: BookTop, book: Book)
    ensures Meter(top, book).bidPct + Meter(top, book).askPct == 100.0
    ensures NonNegative(book.bids) && NonNegative(book.asks) ==>
              && 0.0 <= Meter(top, book).bidPct <= 100.0
              && 0.0 <= Meter(top, book).askPct <= 100.0
    ensures TotalQty(book.bids) + TotalQty(book.asks) != 0.0 ==>
              Meter(top, book).bidPct * (TotalQty(book.bids) + TotalQty(book.asks)) == 100.0 * TotalQty(book.bids)
  {
    if NonNegative(book.bids) && NonNegative(book.asks) {
      TotalQtyNonNegative(book.bids);
      TotalQtyNonNegative(book.asks);
      var b := TotalQty(book.bids);
      var a := TotalQty(book.asks);
      if b + a != 0.0 {
        RatioInUnit(b, b + a);
      }
    }
  }

  /** An empty book (or one of zero quantities) shows 0% bids and 100% asks,
      not an even split. */
  lemma MeterEmptyBook(top: BookTop, book: Book)
    requires TotalQty(book.bids) == 0.0 && TotalQty(book.asks) == 0.0
    ensures Meter(top, book).bidPct == 0.0 && Meter(top, book).askPct == 100.0
  {
  }

  /** 70 against 30 shows 70% / 30%. */
  lemma MeterSeventyThirty(top: BookTop)
    ensures var book := Book([Level(Some(1.0), Some(70.0))], [Level(Some(2.0), Some(30.0))]);
            Meter(top, book).bidPct == 70.0 && Meter(top, book).askPct == 30.0
  {
    var book := Book([Level(Some(1.0), Some(70.0))], [Level(Some(2.0), Some(30.0))]);
    assert TotalQty(book.bids) == 70.0 by {
      assert book.bids[..0] == [];
    }
    assert TotalQty(book.asks) == 30.0 by {
      assert book.asks[..0] == [];
    }
  }

  /** Mid, spread and spread percent are 0 unless both the bid and the ask
      are non-zero numbers; otherwise the spread is ask minus bid and the
      mid lies half-way between them. */
  lemma MeterSpread(top: BookTop, book: Book)
    ensures var d := Meter(top, book);
            && (d.bid == 0.0 || d.ask == 0.0 ==> d.mid == 0.0 && d.spread == 0.0 && d.spreadPct == 0.0)
            && (d.bid != 0.0 && d.ask != 0.0 ==>
                  d.spread == d.ask - d.bid && d.mid - d.bid == d.ask - d.mid
                  && (d.mid != 0.0 ==> d.spreadPct * d.mid == 100.0 * d.spread))
            && (top.bid.None? ==> d.bid == 0.0) && (top.ask.None? ==> d.ask == 0.0)
            && d.bid == OrZero(top.bid) && d.ask == OrZero(top.ask)
  {
  }

  /** Width of a depth-meter segment: the share clamped to [0, 100]. */
  function MeterWidth(pct: real): (w: real)
    ensures 0.0 <= w <= 100.0
    ensures 0.0 <= pct <= 100.0 ==> w == pct
    ensures pct < 0.0 ==> w == 0.0
    ensures pct > 100.0 ==> w == 100.0
  {
    Max(0.0, Min(100.0, pct))
  }

  /** The largest single-row quantity over both sides, and at least 1
      (`Math.max(1, ...all)`), NaN quantities counting as 0. */
  function MaxQty(rows: seq<Level>): (m: real)
    ensures m >= 1.0
    ensures forall k :: 0 <= k < |rows| ==> OrZero(rows[k].qty) <= m
    ensures m == 1.0 || exists k :: 0 <= k < |rows| && OrZero(rows[k].qty) == m
  {
    if rows == [] then 1.0
    else
      var m := MaxQty(rows[..|rows| - 1]);
      var q := OrZero(rows[|rows| - 1].qty);
      assert forall k :: 0 <= k < |rows| - 1 ==> rows[..|rows| - 1][k] == rows[k];
      Max(m, q)
  }

  function ObMaxQty(book: Book): real {
    MaxQty(book.bids + book.asks)
  }

  /** A ladder row's bar width in percent, `Math.round(q / obMaxQty * 100)`;
      the row's own quantity is used as is, so a NaN quantity has no width. */
  function RowWidth(row: Level, maxQty: real): Option<int>
    requires maxQty >= 1.0
  {
    match row.qty
    case None => None
    case Some(q) => Some(Round(q / maxQty * 100.0))
  }

  /** Every row of either side with a non-negative quantity gets a width in
      [0, 100], and a largest row of quantity at least 1 gets the full 100. */
  lemma RowWidthBounds(book: Book, row: Level)
    requires row in book.bids || row in book.asks
    requires row.qty.Some? && row.qty.value >= 0.0
    ensures var w := RowWidth(row, ObMaxQty(book)).value;
            0 <= w <= 100
    ensures row.qty.value == ObMaxQty(book) ==> RowWidth(row, ObMaxQty(book)) == Some(100)
  {
    var all := book.bids + book.asks;
    assert row in all;
    var k :| 0 <= k < |all| && all[k] == row;
    var m := ObMaxQty(book);
    var q := row.qty.value;
    assert q <= m;
    RatioInUnit(q, m);
    var x := q / m * 100.0;
    assert 0.0 <= x <= 100.0;
    assert q == m ==> x == 100.0;
  }
}

=== FILE: forms.dfy ===
/** The sign-up and login forms (frontend/src/pages/Signup.jsx and
    src/pages/Login.jsx): when the submit button is enabled, the password
    confirmation, and the guard against double submission. */
module AuthForms {
  import opened Wrappers
  import opened JsString

  /** `pass && pass2 && pass === pass2`: both passwords typed and identical,
      compared as typed (no trimming). */
  predicate Match(pass: string, pass2: string) {
    pass != "" && pass2 != "" && pass == pass2
  }

  /** The sign-up form may be submitted. */
  predicate SignupCanSubmit(name: string, email: string, pass: string, pass2: string) {
    Trim(name) != "" && Trim(email) != "" && Trim(pass) != "" && Match(pass, pass2)
  }

  /** The login form may be submitted. */
  predicate LoginCanSubmit(email: string, pass: string) {
    Trim(email) != "" && Trim(pass) != ""
  }

  /** Sign-up needs a name, an email and a password that are not blank, and
      the confirmation equal to the password; a blank password is refused
      even when both fields agree. */
  lemma SignupCanSubmitSpec(name: string, email: string, pass: string, pass2: string)
    ensures SignupCanSubmit(name, email, pass, pass2) <==>
              !Blank(name) && !Blank(email) && !Blank(pass) && pass2 == pass
  {
    if !Blank(pass) {
      assert pass != "";
    }
  }

  /** Login needs an email and a password that are not blank. */
  lemma LoginCanSubmitSpec(email: string, pass: string)
    ensures LoginCanSubmit(email, pass) <==> !Blank(email) && !Blank(pass)
  {
  }

  /** Sign-up asks for everything login asks for. */
  lemma SignupImpliesLogin(name: string, email: string, pass: string, pass2: string)
    ensures SignupCanSubmit(name, email, pass, pass2) ==> LoginCanSubmit(email, pass)
  {
  }

  /** The class of the confirmation field: "bad" once a confirmation is typed
      that does not match, "good" when it matches. */
  function ConfirmFieldClass(pass: string, pass2: string): string {
    Cls([Some("authField"),
         if pass2 != "" && !Match(pass, pass2) then Some("bad") else None,
         if Match(pass, pass2) then Some("good") else None])
  }

  /** The confirmation field is marked good exactly when the passwords
      match, bad exactly when a typed confirmation does not, and unmarked
      while the confirmation is empty. */
  lemma ConfirmFieldClassSpec(pass: string, pass2: string)
    ensures Match(pass, pass2) ==> ConfirmFieldClass(pass, pass2) == "authField good"
    ensures pass2 != "" && !Match(pass, pass2) ==> ConfirmFieldClass(pass, pass2) == "authField bad"
    ensures pass2 == "" ==> ConfirmFieldClass(pass, pass2) == "authField"
  {
    if Match(pass, pass2) {
      ClassWith(None, "good");
    } else if pass2 != "" {
      ClassWith(Some("bad"), "bad");
    } else {
      ClassPlain(None);
    }
  }

  /** The field's class with one marker part present. */
  lemma ClassWith(bad: Option<string>, marker: string)
    requires (bad == None && marker == "good") || (bad == Some("bad") && marker == "bad")
    ensures Cls([Some("authField"), bad, if marker == "good" then Some("good") else None])
            == "authField " + marker
  {
    var y: Option<string> := if marker == "good" then Some("good") else None;
    var parts := [Some("authField"), bad, y];
    assert parts[1..] == [bad, y] && [bad, y][1..] == [y] && |[y][1..]| == 0;
    assert TruthyParts([y]) == (if y.Some? then ["good"] else []);
    assert TruthyParts([bad, y]) == [marker];
    assert TruthyParts(parts) == ["authField"] + [marker];
    assert ["authField", marker][1..] == [marker];
    assert JoinSpace(["authField", marker]) == "authField" + " " + marker;
  }

  /** The field's class with no marker part present. */
  lemma ClassPlain(bad: Option<string>)
    requires bad == None
    ensures Cls([Some("authField"), bad, None]) == "authField"
  {
    var none: Option<string> := None;
    var parts := [Some("authField"), bad, none];
    assert parts[1..] == [bad, none] && [bad, none][1..] == [none] && |[none][1..]| == 0;
    assert TruthyParts([none]) == [];
    assert TruthyParts([bad, none]) == [];
    assert TruthyParts(parts) == ["authField"] + [];
  }

  /** The form's progress: whether a submission is in flight, whether the
      demo auth flag is stored, and the route shown. */
  datatype Session = Session(busy: bool, authed: bool, route: string)

  const TradingRoute: string := "/trading"

  /** `onSubmit`: ignored while the form may not be submitted or a
      submission is in flight; otherwise the form becomes busy. */
  function Submit(canSubmit: bool, s: Session): (r: Session)
    ensures !canSubmit || s.busy ==> r == s
    ensures canSubmit && !s.busy ==> r.busy && r.authed == s.authed && r.route == s.route
  {
    if !canSubmit || s.busy then s else s.(busy := true)
  }

  /** The demo timer firing: the form is no longer busy, the demo auth flag
      is stored and the trading page is shown. */
  function Complete(s: Session): (r: Session)
    ensures !r.busy && r.authed && r.route == TradingRoute
  {
    Session(false, true, TradingRoute)
  }

  /** Submitting twice before the timer fires starts only one submission,
      and an enabled submission ends on the trading page signed in. */
  lemma SubmitOnce(canSubmit: bool, s: Session)
    ensures Submit(canSubmit, Submit(canSubmit, s)) == Submit(canSubmit, s)
    ensures canSubmit && !s.busy ==> Complete(Submit(canSubmit, s)) == Session(false, true, TradingRoute)
    ensures canSubmit && !s.busy ==> Submit(canSubmit, s).busy && Submit(canSubmit, s).authed == s.authed
    ensures !canSubmit ==> Submit(canSubmit, s) == s
  {
  }
}

=== FILE: goldmining.dfy ===
/** The gold mining page (frontend/src/pages/GoldMining.jsx): the rig tiers,
    the selection and the earnings estimator. */
module GoldMining {
  import opened Wrappers
  import JsArray

  datatype Tier = Tier(key: string, name: string, entry: real, dailyRate: real)

  const Tiers: seq<Tier> := [
    Tier("starter", "Starter Rig", 100.0, 0.3),
    Tier("bronze", "Bronze Miner", 300.0, 0.5),
    Tier("silver", "Silver Engine", 500.0, 0.75),
    Tier("gold", "Gold Core", 800.0, 1.0),
    Tier("platinum", "Platinum Array", 1000.0, 1.5),
    Tier("titan", "Titan Vault Rig", 2000.0, 2.0)
  ]

  /** The tier selected when the page opens. */
  const InitialKey: string := Tiers[0].key

  /** The selected tier: the one with the selected key, falling back to the
      first tier for an unknown key. */
  function Selected(key: string): (t: Tier)
    ensures t in Tiers
    ensures (exists k :: 0 <= k < |Tiers| && Tiers[k].key == key) ==> t.key == key
    ensures (forall k :: 0 <= k < |Tiers| ==> Tiers[k].key != key) ==> t == Tiers[0]
  {
    JsArray.Find(Tiers, (p: Tier) => p.key == key).GetOr(Tiers[0])
  }

  /** The "Est / day" figure a tier card shows. */
  function EstPerDay(t: Tier): real {
    (t.entry * t.dailyRate) / 100.0
  }

  datatype Projection = Projection(daily: real, weekly: real, monthly: real)

  /** The estimator panel for the selected key. */
  function Estimator(key: string): Projection {
    Project(Selected(key))
  }

  /** The day, week and month figures for one tier. */
  function Project(t: Tier): Projection {
    var daily := (t.entry * t.dailyRate) / 100.0;
    Projection(daily, daily * 7.0, daily * 30.0)
  }

  lemma ProjectMatchesCard(t: Tier)
    ensures var e := Project(t);
            && e.daily == EstPerDay(t)
            && e.weekly == 7.0 * e.daily
            && e.monthly == 30.0 * e.daily
            && e.daily * 100.0 == t.entry * t.dailyRate
  {
  }

  /** The panel's daily figure is the "Est / day" of the selected tier's
      card, and the weekly and monthly figures are 7 and 30 days of it. */
  lemma EstimatorMatchesCard(key: string)
    ensures var e := Estimator(key);
            && e.daily == EstPerDay(Selected(key))
            && e.weekly == 7.0 * e.daily
            && e.monthly == 30.0 * e.daily
            && e.daily * 100.0 == Selected(key).entry * Selected(key).dailyRate
  {
    ProjectMatchesCard(Selected(key));
  }

  /** The page opens on the Starter Rig, which earns 0.30 a day. */
  lemma InitialEstimate()
    ensures Selected(InitialKey) == Tiers[0]
    ensures Estimator(InitialKey) == Projection(0.3, 2.1, 9.0)
  {
    assert Tiers[0].key == "starter";
  }

  /** Tier keys are distinct, so each key selects its own tier. */
  lemma SelectEachTier(k: nat)
    requires k < |Tiers|
    ensures Selected(Tiers[k].key) == Tiers[k]
  {
    var t := Selected(Tiers[k].key);
    var i :| 0 <= i < |Tiers| && Tiers[i] == t;
    assert Tiers[i].key == Tiers[k].key;
    if i != k {
      KeysDistinct(i, k);
    }
  }

  /** No two tiers share a key. */
  lemma KeysDistinct(i: nat, j: nat)
    requires i < |Tiers| && j < |Tiers| && i != j
    ensures Tiers[i].key != Tiers[j].key
  {
    var a, b := Tiers[i].key, Tiers[j].key;
    assert |a| > 1 && |b| > 1;
    assert a[0] != b[0] || a[1] != b[1];
  }

  /** Higher tiers cost more and pay a higher daily rate, so they also earn more per day. */
  lemma TiersAscend(i: nat, j: nat)
    requires i < j < |Tiers|
    ensures Tiers[i].entry < Tiers[j].entry
    ensures Tiers[i].dailyRate < Tiers[j].dailyRate
    ensures EstPerDay(Tiers[i]) < EstPerDay(Tiers[j])
  {
    var a := Tiers[i];
    var b := Tiers[j];
    assert a.entry * a.dailyRate < b.entry * a.dailyRate;
    assert b.entry * a.dailyRate < b.entry * b.dailyRate;
  }
}

=== FILE: jsarray.dfy ===
/** `Array.prototype.find`, which every page uses to look up its selection. */
module JsArray {
  import opened Wrappers

  /** The first element satisfying `p`, or None when there is none. */
  function Find<T(==)>(s: seq<T>, p: T -> bool): (r: Option<T>)
    ensures r.None? <==> forall k :: 0 <= k < |s| ==> !p(s[k])
    ensures r.Some? ==> exists k :: 0 <= k < |s| && s[k] == r.value && p(s[k])
                          && forall j :: 0 <= j < k ==> !p(s[j])
  {
    if s == [] then None
    else if p(s[0]) then Some(s[0])
    else
      var r := Find(s[1..], p);
      assert forall k :: 1 <= k < |s| ==> s[k] == s[1..][k - 1];
      if r.Some? then
        var k :| 0 <= k < |s[1..]| && s[1..][k] == r.value && p(s[1..][k])
                 && forall j :: 0 <= j < k ==> !p(s[1..][j]);
        assert s[k + 1] == r.value && forall j :: 0 <= j < k + 1 ==> !p(s[j]);
        r
      else r
  }

  /** `Array.prototype.filter`: the elements satisfying `p`, in order. */
  function Filter<T>(s: seq<T>, p: T -> bool): (r: seq<T>)
    ensures |r| <= |s|
    ensures forall k :: 0 <= k < |r| ==> p(r[k])
  {
    if s == [] then []
    else if p(s[0]) then [s[0]] + Filter(s[1..], p)
    else Filter(s[1..], p)
  }

  /** The filter keeps exactly the elements satisfying `p`, each at most as
      often as the input holds it. */
  lemma {:induction false} FilterMembers<T>(s: seq<T>, p: T -> bool)
    ensures multiset(Filter(s, p)) <= multiset(s)
    ensures forall x :: x in Filter(s, p) <==> x in s && p(x)
  {
    if s != [] {
      var rest := Filter(s[1..], p);
      FilterMembers(s[1..], p);
      assert s == [s[0]] + s[1..];
      assert multiset(s) == multiset{s[0]} + multiset(s[1..]);
      assert forall x :: x in s <==> x == s[0] || x in s[1..];
      if p(s[0]) {
        assert Filter(s, p) == [s[0]] + rest;
      } else {
        assert Filter(s, p) == rest;
      }
    }
  }

  /** Filtering a concatenation filters each part, so the kept elements stay
      in their input order. */
  lemma {:induction false} FilterAppend<T>(a: seq<T>, b: seq<T>, p: T -> bool)
    ensures Filter(a + b, p) == Filter(a, p) + Filter(b, p)
  {
    if a != [] {
      FilterAppend(a[1..], b, p);
      assert (a + b)[0] == a[0] && (a + b)[1..] == a[1..] + b;
      if p(a[0]) {
        calc {
          Filter(a + b, p);
          [a[0]] + Filter(a[1..] + b, p);
          [a[0]] + (Filter(a[1..], p) + Filter(b, p));
          ([a[0]] + Filter(a[1..], p)) + Filter(b, p);
          Filter(a, p) + Filter(b, p);
        }
      }
    } else {
      assert a + b == b;
    }
  }

  /** The filter keeps every element satisfying `p` as often as the input
      holds it, and no other element. */
  lemma {:induction false} FilterCount<T>(s: seq<T>, p: T -> bool, x: T)
    ensures multiset(Filter(s, p))[x] == if p(x) then multiset(s)[x] else 0
  {
    if s != [] {
      FilterCount(s[1..], p, x);
      assert s == [s[0]] + s[1..];
      assert multiset(s) == multiset{s[0]} + multiset(s[1..]);
    }
  }
}

=== FILE: jsnum.dfy ===
/** The few JavaScript number operations the pages rely on, over exact reals. */
module JsNum {
  import opened Wrappers

  /** `x || 0` on a number: NaN and 0 are falsy, so both give 0. */
  function OrZero(x: Option<real>): real {
    x.GetOr(0.0)
  }

  /** `Math.max(a, b)` on finite numbers. */
  function Max(a: real, b: real): real {
    if a >= b then a else b
  }

  /** `Math.min(a, b)` on finite numbers. */
  function Min(a: real, b: real): real {
    if a <= b then a else b
  }

  /** `Math.floor`. */
  function Floor(x: real): (r: int)
    ensures r as real <= x < r as real + 1.0
  {
    x.Floor
  }

  /** `Math.round`: the nearest integer, halves rounded towards +infinity. */
  function Round(x: real): (r: int)
    ensures x - 0.5 < r as real <= x + 0.5
  {
    Floor(x + 0.5)
  }

  /** A part over a positive whole is a fraction between 0 and 1. */
  lemma RatioInUnit(part: real, whole: real)
    requires 0.0 <= part <= whole && whole > 0.0
    ensures 0.0 <= part / whole <= 1.0
  {
    var r := part / whole;
    assert r * whole == part;
    assert (1.0 - r) * whole == whole - part;
  }

  lemma MulMonotone(a: real, b: real, c: real)
    requires a <= b && c >= 0.0
    ensures a * c <= b * c
  {
    assert b * c - a * c == (b - a) * c;
  }

  lemma MulStrict(a: real, b: real, c: real)
    requires a < b && c > 0.0
    ensures a * c < b * c
  {
    assert b * c - a * c == (b - a) * c;
  }

  lemma DivMonotone(a: real, b: real, c: real)
    requires a <= b && c > 0.0
    ensures a / c <= b / c
  {
    var d := (b - a) / c;
    assert d * c == b - a;
    assert b / c - a / c == d;
  }

  lemma FloorMonotone(a: real, b: real)
    requires a <= b
    ensures Floor(a) <= Floor(b)
  {
  }

  lemma AddOneMul(a: real, c: real)
    ensures (a + 1.0) * c == a * c + c
  {
  }

  /** If `u` lies in [i, i + 1), then `u * step` lies in [i * step, i * step + step). */
  lemma ColumnBounds(u: real, step: real, rx: real, i: int)
    requires rx == u * step
    requires step > 0.0
    requires i as real <= u < i as real + 1.0
    ensures i as real * step <= rx < i as real * step + step
  {
    var lo := i as real;
    MulMonotone(lo, u, step);
    MulStrict(u, lo + 1.0, step);
    AddOneMul(lo, step);
    calc {
      lo * step;
    <=
      u * step;
    ==
      rx;
    }
    calc {
      rx;
    ==
      u * step;
    <
      (lo + 1.0) * step;
    ==
      lo * step + step;
    }
  }
}

=== FILE: jsstring.dfy ===
/** JavaScript string behaviour the pages depend on: `trim`, `toUpperCase`,
    `split(/\s+/)`, `includes` / `endsWith`, `join(" ")`, `a || b || c`
    over strings, and the `cls` class-name helper built from them. */
module JsString {
  import opened Wrappers

  /** White space as `String.prototype.trim` and the regular-expression class
      `\s` see it: the WhiteSpace and LineTerminator productions of ECMA-262. */
  predicate IsSpace(c: char) {
    c in SpaceChars
  }

  const SpaceChars: set<char> := {
    ' ', '\t', '\n', '\r', '\U{000B}', '\U{000C}', '\U{00A0}', '\U{1680}',
    '\U{2000}', '\U{2001}', '\U{2002}', '\U{2003}', '\U{2004}', '\U{2005}',
    '\U{2006}', '\U{2007}', '\U{2008}', '\U{2009}', '\U{200A}',
    '\U{2028}', '\U{2029}', '\U{202F}', '\U{205F}', '\U{3000}', '\U{FEFF}'
  }

  /** Every character is white space (the empty string included). */
  predicate Blank(s: string) {
    forall i :: 0 <= i < |s| ==> IsSpace(s[i])
  }

  /** A non-empty run of non-space characters. */
  predicate IsWord(w: string) {
    |w| > 0 && forall i :: 0 <= i < |w| ==> !IsSpace(w[i])
  }

  lemma BlankConcat(a: string, b: string)
    requires Blank(a) && Blank(b)
    ensures Blank(a + b)
  {
    forall i | 0 <= i < |a + b|
      ensures IsSpace((a + b)[i])
    {
      if i < |a| {
        assert (a + b)[i] == a[i];
      } else {
        assert (a + b)[i] == b[i - |a|];
      }
    }
  }

  /** How many white-space characters `s` starts with. */
  function LeadingSpaces(s: string): (k: nat)
    ensures k <= |s|
    ensures forall i :: 0 <= i < k ==> IsSpace(s[i])
    ensures k == |s| || !IsSpace(s[k])
  {
    if |s| > 0 && IsSpace(s[0]) then 1 + LeadingSpaces(s[1..]) else 0
  }

  /** `String.prototype.trimStart`: drops the leading white space. */
  function TrimStart(s: string): (r: string)
    ensures |r| <= |s| && r == s[|s| - |r|..]
    ensures Blank(s[..|s| - |r|])
    ensures r == [] || !IsSpace(r[0])
  {
    s[LeadingSpaces(s)..]
  }

  /** `String.prototype.trimEnd`: drops the trailing white space. */
  function TrimEnd(s: string): (r: string)
    ensures |r| <= |s| && r == s[..|r|]
    ensures Blank(s[|r|..])
    ensures r == [] || !IsSpace(r[|r| - 1])
  {
    if |s| > 0 && IsSpace(s[|s| - 1]) then
      var r := TrimEnd(s[..|s| - 1]);
      assert s[..|r|] == s[..|s| - 1][..|r|];
      assert s[|r|..] == s[..|s| - 1][|r|..] + [s[|s| - 1]];
      BlankConcat(s[..|s| - 1][|r|..], [s[|s| - 1]]);
      r
    else s
  }

  /** `String.prototype.trim`. */
  function Trim(s: string): (r: string)
    ensures r == [] <==> Blank(s)
    ensures r == [] || (!IsSpace(r[0]) && !IsSpace(r[|r| - 1]))
    ensures r != [] ==> r[0] == TrimStart(s)[0]
    ensures |r| <= |TrimStart(s)| && r == TrimStart(s)[..|r|]
    ensures Blank(TrimStart(s)[|r|..])
  {
    var t := TrimStart(s);
    var r := TrimEnd(t);
    TrimBlank(s, t, r);
    r
  }

  lemma TrimBlank(s: string, t: string, r: string)
    requires t == TrimStart(s) && r == TrimEnd(t)
    ensures r == [] <==> Blank(s)
  {
    if r == [] {
      EmptyTrimIsBlank(s, t);
    } else {
      var k := |s| - |t|;
      assert t[0] == r[0] && s[k] == t[0];
    }
  }

  lemma EmptyTrimIsBlank(s: string, t: string)
    requires t == TrimStart(s) && TrimEnd(t) == []
    ensures Blank(s)
  {
    assert t[0..] == t;
    assert t == [];
    assert s[..|s|] == s;
  }

  /** The upper-case form of an ASCII letter; every other character is kept. */
  function UpperChar(c: char): char {
    if 'a' <= c <= 'z' then (c as int - 32) as char else c
  }

  predicate IsLowerAscii(c: char) {
    'a' <= c <= 'z'
  }

  /** `String.prototype.toUpperCase`, restricted to the ASCII letters. */
  function ToUpper(s: string): (r: string)
    ensures |r| == |s|
    ensures forall i :: 0 <= i < |s| ==> r[i] == UpperChar(s[i]) && !IsLowerAscii(r[i])
  {
    seq(|s|, i requires 0 <= i < |s| => UpperChar(s[i]))
  }

  predicate StartsWith(s: string, prefix: string) {
    |prefix| <= |s| && s[..|prefix|] == prefix
  }

  /** `String.prototype.endsWith`. */
  predicate EndsWith(s: string, suffix: string) {
    |suffix| <= |s| && s[|s| - |suffix|..] == suffix
  }

  /** `String.prototype.includes`. */
  predicate Includes(s: string, sub: string)
    decreases |s|
  {
    StartsWith(s, sub) || (|s| > 0 && Includes(s[1..], sub))
  }

  /** `sub` occurs in `s` starting at position `i`. */
  predicate OccursAt(s: string, sub: string, i: int) {
    0 <= i <= |s| - |sub| && s[i..i + |sub|] == sub
  }

  /** `Includes` holds exactly when `sub` occurs at some position of `s`. */
  lemma {:induction false} IncludesIffOccurs(s: string, sub: string)
    ensures Includes(s, sub) <==> exists i :: OccursAt(s, sub, i)
    decreases |s|
  {
    if StartsWith(s, sub) {
      assert OccursAt(s, sub, 0);
    } else if |s| > 0 {
      IncludesIffOccurs(s[1..], sub);
      if Includes(s[1..], sub) {
        var i :| OccursAt(s[1..], sub, i);
        assert s[i + 1..i + 1 + |sub|] == s[1..][i..i + |sub|];
        assert OccursAt(s, sub, i + 1);
      }
      if i :| OccursAt(s, sub, i) && i > 0 {
        assert s[1..][i - 1..i - 1 + |sub|] == s[i..i + |sub|];
        assert OccursAt(s[1..], sub, i - 1);
      }
    }
  }

  /** The longest prefix of `s` free of white space. */
  function Run(s: string): (r: string)
    ensures |r| <= |s| && r == s[..|r|]
    ensures forall i :: 0 <= i < |r| ==> !IsSpace(r[i])
    ensures |r| == |s| || IsSpace(s[|r|])
  {
    if |s| > 0 && !IsSpace(s[0]) then [s[0]] + Run(s[1..]) else []
  }

  /** `s.split(/\s+/).filter(Boolean)`: the maximal runs of non-space
      characters of `s`, in order (the empty pieces that leading or trailing
      white space makes `split` produce are the ones the filter removes). */
  function Words(s: string): (ws: seq<string>)
    ensures forall k :: 0 <= k < |ws| ==> IsWord(ws[k])
    decreases |s|
  {
    if s == [] then []
    else if IsSpace(s[0]) then Words(s[1..])
    else
      var w := Run(s);
      [w] + Words(s[|w|..])
  }

  /** A string has no words exactly when it is blank; otherwise the first
      word starts at the first non-space character. */
  lemma {:induction false} WordsEmptyIffBlank(s: string)
    ensures Words(s) == [] <==> Blank(s)
    ensures Words(s) != [] ==> Words(s)[0][0] == TrimStart(s)[0]
    decreases |s|
  {
    if s != [] && IsSpace(s[0]) {
      WordsEmptyIffBlank(s[1..]);
      assert Blank(s) <==> Blank(s[1..]);
    }
  }

  /** `parts.join(" ")`. */
  function JoinSpace(parts: seq<string>): string {
    if parts == [] then ""
    else if |parts| == 1 then parts[0]
    else parts[0] + " " + JoinSpace(parts[1..])
  }

  lemma {:induction false} JoinSpaceHead(ws: seq<string>)
    requires ws != [] && IsWord(ws[0])
    ensures |JoinSpace(ws)| > 0 && JoinSpace(ws)[0] == ws[0][0]
  {
  }

  lemma {:induction false} RunOfWord(w: string, rest: string)
    requires IsWord(w)
    requires rest == [] || IsSpace(rest[0])
    ensures Run(w + rest) == w
    decreases |w|
  {
    if |w| > 1 {
      assert (w + rest)[1..] == w[1..] + rest;
      RunOfWord(w[1..], rest);
    } else {
      assert (w + rest)[1..] == rest;
    }
  }

  lemma {:induction false} JoinSpaceLast(ws: seq<string>)
    requires ws != [] && IsWord(ws[|ws| - 1])
    ensures var j := JoinSpace(ws); var w := ws[|ws| - 1];
            |j| > 0 && j[|j| - 1] == w[|w| - 1]
  {
    if |ws| > 1 {
      JoinSpaceLast(ws[1..]);
      assert ws[1..][|ws| - 2] == ws[|ws| - 1];
    }
  }

  /** Trimming a string that neither starts nor ends with white space leaves it as it is. */
  lemma TrimUnpadded(s: string)
    requires s == [] || (!IsSpace(s[0]) && !IsSpace(s[|s| - 1]))
    ensures Trim(s) == s
  {
  }

  /** The single-space join of words has no white space to trim. */
  lemma TrimOfJoin(ws: seq<string>)
    requires ws != [] && IsWord(ws[0]) && IsWord(ws[|ws| - 1])
    ensures Trim(JoinSpace(ws)) == JoinSpace(ws)
  {
    var j := JoinSpace(ws);
    JoinSpaceHead(ws);
    JoinSpaceLast(ws);
    var first := ws[0];
    var last := ws[|ws| - 1];
    assert !IsSpace(first[0]) && !IsSpace(last[|last| - 1]);
    TrimUnpadded(j);
  }

  /** Round trip: splitting the single-space join of words gives the words back. */
  lemma {:induction false} WordsOfJoin(ws: seq<string>)
    requires forall k :: 0 <= k < |ws| ==> IsWord(ws[k])
    ensures Words(JoinSpace(ws)) == ws
  {
    if ws == [] {
    } else if |ws| == 1 {
      var w := ws[0];
      assert w + [] == w;
      RunOfWord(w, []);
      assert w[|w|..] == [];
    } else {
      var w := ws[0];
      var j := JoinSpace(ws[1..]);
      var s := w + " " + j;
      assert s == w + ([' '] + j);
      RunOfWord(w, [' '] + j);
      assert s[|w|..] == [' '] + j;
      assert ([' '] + j)[1..] == j;
      WordsOfJoin(ws[1..]);
      assert ws == [w] + ws[1..];
    }
  }

  /** A class-name part is truthy when it is a non-empty string; `false`,
      `null` and `undefined` are modelled as None. */
  predicate IsTruthy(p: Option<string>) {
    p.Some? && p.value != ""
  }

  /** `parts.filter(Boolean)` on class-name parts. */
  function TruthyParts(parts: seq<Option<string>>): (r: seq<string>)
    ensures |r| <= |parts|
    ensures forall k :: 0 <= k < |r| ==> r[k] != "" && Some(r[k]) in parts
    ensures forall i :: 0 <= i < |parts| && IsTruthy(parts[i]) ==> parts[i].value in r
  {
    if parts == [] then []
    else if IsTruthy(parts[0]) then [parts[0].value] + TruthyParts(parts[1..])
    else TruthyParts(parts[1..])
  }

  /** `cls(...a)`: the truthy parts joined with single spaces. */
  function Cls(parts: seq<Option<string>>): string {
    JoinSpace(TruthyParts(parts))
  }

  /** Parts that are strings are either empty or a single word. */
  predicate SpaceFreeParts(parts: seq<Option<string>>) {
    forall i :: 0 <= i < |parts| && parts[i].Some? ==> parts[i].value == "" || IsWord(parts[i].value)
  }

  /** `cls` gives the empty string exactly when every part is falsy. */
  lemma ClsEmpty(parts: seq<Option<string>>)
    ensures Cls(parts) == "" <==> forall i :: 0 <= i < |parts| ==> !IsTruthy(parts[i])
  {
    var ts := TruthyParts(parts);
    if ts != [] {
      assert |ts[0]| > 0;
      if |ts| > 1 {
        assert Cls(parts) == ts[0] + " " + JoinSpace(ts[1..]);
      }
      var i :| 0 <= i < |parts| && parts[i] == Some(ts[0]);
      assert IsTruthy(parts[i]);
    }
  }

  /** Round trip: when no part contains white space, splitting the class
      string on white space recovers exactly the truthy parts, in order. */
  lemma ClsRoundTrip(parts: seq<Option<string>>)
    requires SpaceFreeParts(parts)
    ensures Words(Cls(parts)) == TruthyParts(parts)
  {
    var ts := TruthyParts(parts);
    forall k | 0 <= k < |ts|
      ensures IsWord(ts[k])
    {
      var i :| 0 <= i < |parts| && parts[i] == Some(ts[k]);
    }
    WordsOfJoin(ts);
  }

  /** `a || b || … || fallback` over strings that may be missing: the first
      non-empty one, or the fallback when there is none. */
  function OrChain(xs: seq<Option<string>>, fallback: string): string {
    if xs == [] then fallback
    else if IsTruthy(xs[0]) then xs[0].value
    else OrChain(xs[1..], fallback)
  }

  /** The chain picks the first of the truthy parts, and the fallback when
      no part is truthy. */
  lemma {:induction false} OrChainFirstTruthy(xs: seq<Option<string>>, fallback: string)
    ensures TruthyParts(xs) == [] ==> OrChain(xs, fallback) == fallback
    ensures TruthyParts(xs) != [] ==> OrChain(xs, fallback) == TruthyParts(xs)[0]
  {
    if xs != [] && !IsTruthy(xs[0]) {
      OrChainFirstTruthy(xs[1..], fallback);
    }
  }
}

=== FILE: miningpackages.dfy ===
/** The mining packages page (src/pages/MiningPackages.jsx): the package
    table, the selection, the investment calculator and the portfolio summary. */
module MiningPackages {
  import opened Wrappers
  import opened JsNum
  import JsArray
  import opened Yield

  datatype Package = Package(id: string, name: string, plan: Plan, recommended: bool)

  const Packages: seq<Package> := [
    Package("mp-starter", "Starter Miner", Plan(0.9, 30, 100.0, 999.0), false),
    Package("mp-core", "Core Miner", Plan(1.2, 45, 1000.0, 4999.0), true),
    Package("mp-pro", "Pro Miner", Plan(1.5, 60, 5000.0, 19999.0), false),
    Package("mp-institutional", "Institutional Miner", Plan(1.8, 90, 20000.0, 100000.0), false)
  ]

  /** The amount the calculator starts with. */
  const InitialAmount: real := 1500.0

  /** `clamp(n, min, max)`: a non-finite `n` counts as 0, then the value is
      limited to the range. */
  function Clamp(n: Option<real>, lo: real, hi: real): (r: real)
    ensures lo <= hi ==> lo <= r <= hi
    ensures n.Some? && lo <= n.value <= hi ==> r == n.value
    ensures n.Some? && n.value < lo ==> r == lo
    ensures n.Some? && lo <= hi < n.value ==> r == hi
    ensures n.None? && lo <= 0.0 <= hi ==> r == 0.0
    ensures n.None? && 0.0 < lo ==> r == lo
    ensures n.None? && lo <= hi < 0.0 ==> r == hi
  {
    Max(lo, Min(hi, n.GetOr(0.0)))
  }

  predicate IsRecommended(p: Package) {
    p.recommended
  }

  /** The package id selected when the page opens: the first recommended
      package, or the first package when none is. */
  function InitialSelection(ps: seq<Package>): (id: string)
    requires ps != []
    ensures (exists k :: 0 <= k < |ps| && ps[k].recommended) ==>
              exists k :: 0 <= k < |ps| && ps[k].recommended
                && (forall j :: 0 <= j < k ==> !ps[j].recommended)
                && id == (if ps[k].id != "" then ps[k].id else ps[0].id)
    ensures (forall k :: 0 <= k < |ps| ==> !ps[k].recommended) ==> id == ps[0].id
  {
    match JsArray.Find(ps, IsRecommended)
    case Some(p) => if p.id != "" then p.id else ps[0].id
    case None => ps[0].id
  }

  /** The selected package: the one with the selected id, falling back to
      the first package for an unknown id. */
  function SelectedPackage(id: string): (p: Package)
    ensures p in Packages
    ensures (exists k :: 0 <= k < |Packages| && Packages[k].id == id) ==> p.id == id
    ensures (forall k :: 0 <= k < |Packages| ==> Packages[k].id != id) ==> p == Packages[0]
  {
    JsArray.Find(Packages, (q: Package) => q.id == id).GetOr(Packages[0])
  }

  /** The page opens on the Core Miner, the recommended package. */
  lemma InitialSelectionIsCore()
    ensures InitialSelection(Packages) == "mp-core"
    ensures SelectedPackage(InitialSelection(Packages)).recommended
  {
    assert !Packages[0].recommended && Packages[1].recommended;
    assert Packages[1].id == "mp-core";
  }

  /** Every package's range starts at a positive amount and is non-empty,
      and package ids are distinct. */
  lemma PackagesWellFormed()
    ensures forall k :: 0 <= k < |Packages| ==> 0.0 < Packages[k].plan.min <= Packages[k].plan.max
    ensures forall i, j :: 0 <= i < j < |Packages| ==> Packages[i].id != Packages[j].id
  {
  }

  /** The amount "Use Minimum" sets for the selected package. */
  function UseMinimum(p: Package): Option<real> {
    Some(Clamp(Some(p.plan.min), 0.0, p.plan.max))
  }

  /** For every package, "Use Minimum" sets the package's minimum, which is
      in range and enables Proceed. */
  lemma UseMinimumEnablesProceed(id: string)
    ensures var p := SelectedPackage(id);
            UseMinimum(p) == Some(p.plan.min) && ProceedEnabled(UseMinimum(p), p.plan)
  {
    PackagesWellFormed();
  }

  /** The calculator's starting amount is in the Core Miner's range. */
  lemma InitialAmountEnablesProceed()
    ensures ProceedEnabled(Some(InitialAmount), SelectedPackage(InitialSelection(Packages)).plan)
  {
    InitialSelectionIsCore();
  }

  /** The total return percent a package card shows. */
  function CardReturnPct(p: Package): (pct: real) {
    p.plan.durationDays as real * (p.plan.dailyPct / 100.0) * 100.0
  }

  /** The card's percent is the calculator's ROI for any positive amount. */
  lemma CardMatchesCalculator(p: Package, amount: real)
    requires amount > 0.0
    ensures CardReturnPct(p) == Calc(Some(amount), p.plan).roiPct
    ensures CardReturnPct(p) == p.plan.dailyPct * p.plan.durationDays as real
  {
    CalcSpec(Some(amount), p.plan);
  }

  /** One running position of the portfolio. */
  datatype Position = Position(id: string, packageId: string, principal: real, accrued: real, daysLeft: nat)

  const ActiveMining: seq<Position> := [
    Position("am-10021", "mp-core", 2500.0, 182.4, 32),
    Position("am-10008", "mp-starter", 600.0, 135.2, 5)
  ]

  /** `xs.reduce((s, x) => s + f(x), 0)`. */
  function Total(xs: seq<Position>, f: Position -> real): real {
    if xs == [] then 0.0 else Total(xs[..|xs| - 1], f) + f(xs[|xs| - 1])
  }

  /** The total over a concatenation is the sum of the totals. */
  lemma {:induction false} TotalAppend(a: seq<Position>, b: seq<Position>, f: Position -> real)
    ensures Total(a + b, f) == Total(a, f) + Total(b, f)
    decreases |b|
  {
    if b != [] {
      assert (a + b)[..|a + b| - 1] == a + b[..|b| - 1];
      TotalAppend(a, b[..|b| - 1], f);
    } else {
      assert a + b == a;
    }
  }

  /** Totals of non-negative amounts are non-negative and bound each term. */
  lemma {:induction false} TotalBoundsTerms(xs: seq<Position>, f: Position -> real)
    requires forall k :: 0 <= k < |xs| ==> f(xs[k]) >= 0.0
    ensures Total(xs, f) >= 0.0
    ensures forall k :: 0 <= k < |xs| ==> f(xs[k]) <= Total(xs, f)
  {
    if xs != [] {
      var init := xs[..|xs| - 1];
      assert forall k :: 0 <= k < |init| ==> init[k] == xs[k];
      TotalBoundsTerms(init, f);
    }
  }

  datatype Summary = Summary(totalActivePrincipal: real, totalAccrued: real)

  function PortfolioSummary(xs: seq<Position>): Summary {
    Summary(Total(xs, (x: Position) => x.principal), Total(xs, (x: Position) => x.accrued))
  }

  /** The summary of the demo portfolio: 3,100 invested and 317.60 accrued. */
  lemma DemoSummary()
    ensures PortfolioSummary(ActiveMining) == Summary(3100.0, 317.6)
  {
    var p := (x: Position) => x.principal;
    var a := (x: Position) => x.accrued;
    assert ActiveMining[..1][..0] == [];
    assert Total(ActiveMining[..1], p) == 2500.0;
    assert Total(ActiveMining[..1], a) == 182.4;
  }
}

=== FILE: starterrig.dfy ===
/** The starter rig page (frontend/src/pages/StarterRig.jsx): a single
    package with the shared calculator, and the greeting's user and initials. */
module StarterRig {
  import opened Wrappers
  import opened JsString
  import opened Yield

  const Rig: Plan := Plan(0.9, 30, 100.0, 999.0)

  /** The amount the calculator starts with, which exceeds the rig's maximum. */
  const InitialAmount: real := 1500.0

  /** The rig accepts exactly the amounts from 100 to 999. */
  lemma RigRange(amount: Option<real>)
    ensures ProceedEnabled(amount, Rig) <==> amount.Some? && 100.0 <= amount.value <= 999.0
  {
    ProceedIffInRange(amount, Rig);
  }

  /** The page opens with Proceed disabled; "Use Minimum" enables it. */
  lemma InitialAndMinimum()
    ensures !ProceedEnabled(Some(InitialAmount), Rig)
    ensures ProceedEnabled(Some(Rig.min), Rig)
  {
    RigRange(Some(InitialAmount));
    RigRange(Some(Rig.min));
  }

  /** The advertised total return: the daily percent over the whole duration. */
  function TotalReturnPct(): (pct: real)
    ensures pct == 27.0
  {
    Rig.dailyPct * Rig.durationDays as real
  }

  /** The advertised total return agrees with the calculator's ROI for every
      positive amount. */
  lemma TotalReturnIsRoi(amount: real)
    requires amount > 0.0
    ensures Calc(Some(amount), Rig).roiPct == TotalReturnPct()
  {
    CalcSpec(Some(amount), Rig);
  }

  /** The stored user record; a field that is absent or not a string is None. */
  datatype UserRecord = UserRecord(
    name: Option<string>, username: Option<string>, fullName: Option<string>,
    avatar: Option<string>, photo: Option<string>, profilePhoto: Option<string>)

  datatype Me = Me(name: string, avatar: string)

  const Anonymous: Me := Me("User", "")

  /** `getLoggedInUser`: the first non-empty value stored under "gm_user",
      "user" or "auth_user" is parsed; a missing value, a parse failure or a
      non-object (`parse` returns None) gives the anonymous user. The name is
      the first non-empty of name, username and fullName, else "User"; the
      avatar the first non-empty of avatar, photo and profilePhoto, else "". */
  function LoggedInUser(gmUser: Option<string>, user: Option<string>, authUser: Option<string>,
                        parse: string -> Option<UserRecord>): (me: Me)
    ensures me.name != ""
    ensures TruthyParts([gmUser, user, authUser]) == [] ==> me == Anonymous
  {
    var raw := OrChain([gmUser, user, authUser], "");
    OrChainFirstTruthy([gmUser, user, authUser], "");
    if raw == "" then Anonymous
    else match parse(raw)
      case None => Anonymous
      case Some(u) =>
        OrChainNonEmpty([u.name, u.username, u.fullName], "User");
        Me(OrChain([u.name, u.username, u.fullName], "User"),
           OrChain([u.avatar, u.photo, u.profilePhoto], ""))
  }

  /** The record is read from the first stored value; its name is the
      first non-empty name field. */
  lemma LoggedInUserPicks(gmUser: Option<string>, user: Option<string>, authUser: Option<string>,
                          parse: string -> Option<UserRecord>, u: UserRecord)
    requires TruthyParts([gmUser, user, authUser]) != []
    requires parse(TruthyParts([gmUser, user, authUser])[0]) == Some(u)
    ensures LoggedInUser(gmUser, user, authUser, parse).name
              == (if TruthyParts([u.name, u.username, u.fullName]) == [] then "User"
                  else TruthyParts([u.name, u.username, u.fullName])[0])
    ensures LoggedInUser(gmUser, user, authUser, parse).avatar
              == (if TruthyParts([u.avatar, u.photo, u.profilePhoto]) == [] then ""
                  else TruthyParts([u.avatar, u.photo, u.profilePhoto])[0])
  {
    OrChainFirstTruthy([gmUser, user, authUser], "");
    OrChainFirstTruthy([u.name, u.username, u.fullName], "User");
    OrChainFirstTruthy([u.avatar, u.photo, u.profilePhoto], "");
  }

  lemma OrChainNonEmpty(xs: seq<Option<string>>, fallback: string)
    requires fallback != ""
    ensures OrChain(xs, fallback) != ""
  {
    OrChainFirstTruthy(xs, fallback);
  }

  /** The avatar's fallback initials: the first letter of the first word of
      the trimmed name and, when there are several words, the first letter of
      the last, upper-cased; "U" when the name has no words. */
  function Initials(name: string): (r: string)
    ensures 1 <= |r| <= 2
    ensures forall i :: 0 <= i < |r| ==> !IsLowerAscii(r[i])
  {
    InitialsOf(Words(Trim(name)))
  }

  function InitialsOf(parts: seq<string>): (r: string)
    requires forall k :: 0 <= k < |parts| ==> IsWord(parts[k])
    ensures 1 <= |r| <= 2
    ensures forall i :: 0 <= i < |r| ==> !IsLowerAscii(r[i])
  {
    var a := if parts == [] then "U" else assert IsWord(parts[0]); [parts[0][0]];
    var b := if |parts| > 1 then assert IsWord(parts[|parts| - 1]); [parts[|parts| - 1][0]] else "";
    ToUpper(a + b)
  }

  /** A blank name gives "U"; otherwise the initials start with the first
      non-space character of the name, upper-cased, and have a second letter
      exactly when the name has several words. */
  lemma InitialsSpec(name: string)
    ensures Blank(name) ==> Initials(name) == "U"
    ensures !Blank(name) ==> Initials(name)[0] == UpperChar(TrimStart(name)[0])
    ensures |Initials(name)| == 2 <==> |Words(Trim(name))| >= 2
  {
    var t := Trim(name);
    var parts := Words(t);
    WordsEmptyIffBlank(t);
    assert Initials(name) == InitialsOf(parts);
    if parts == [] {
      assert ToUpper("U") == "U" by {
        assert ToUpper("U")[0] == UpperChar('U');
      }
    } else {
      assert TrimStart(t) == t;
    }
  }

  /** For a name written as words separated by single spaces, the initials
      are the upper-cased first letters of its first and last words. */
  lemma InitialsOfWords(first: string, middle: seq<string>, last: string)
    requires IsWord(first) && IsWord(last)
    requires forall k :: 0 <= k < |middle| ==> IsWord(middle[k])
    ensures Initials(JoinSpace([first] + middle + [last])) == [UpperChar(first[0]), UpperChar(last[0])]
  {
    var ws := [first] + middle + [last];
    AllWords(first, middle, last);
    WordsOfTrimmedJoin(ws);
    assert Initials(JoinSpace(ws)) == InitialsOf(ws);
    assert InitialsOf(ws) == ToUpper([first[0]] + [last[0]]);
    UpperPair(first[0], last[0]);
  }

  lemma AllWords(first: string, middle: seq<string>, last: string)
    requires IsWord(first) && IsWord(last)
    requires forall k :: 0 <= k < |middle| ==> IsWord(middle[k])
    ensures var ws := [first] + middle + [last];
            forall k :: 0 <= k < |ws| ==> IsWord(ws[k])
  {
    var ws := [first] + middle + [last];
    forall k | 0 <= k < |ws| ensures IsWord(ws[k]) {
      if 0 < k < |ws| - 1 {
        assert ws[k] == middle[k - 1];
      }
    }
  }

  lemma WordsOfTrimmedJoin(ws: seq<string>)
    requires ws != [] && forall k :: 0 <= k < |ws| ==> IsWord(ws[k])
    ensures Words(Trim(JoinSpace(ws))) == ws
  {
    assert IsWord(ws[0]) && IsWord(ws[|ws| - 1]);
    TrimOfJoin(ws);
    WordsOfJoin(ws);
  }

  lemma UpperPair(x: char, y: char)
    ensures ToUpper([x] + [y]) == [UpperChar(x), UpperChar(y)]
  {
    var r := ToUpper([x] + [y]);
    assert r[0] == UpperChar(x) && r[1] == UpperChar(y);
  }
}

=== FILE: tickers.dfy ===
/** The market list of the trading page: the 24-hour ticker snapshot filtered
    to USDT pairs, ranked by quote volume and cut to the top 40; the symbol
    map built from it; the fallback of the selected symbol; and the search
    box filter (frontend/src/pages/TradingPro.jsx). */
module Tickers {
  import opened Wrappers
  import opened JsString
  import JsArray

  /** One row of the 24-hour ticker snapshot, numbers already parsed:
      last price, change percent, high, low, quote volume, absolute change. */
  datatype Coin = Coin(symbol: string, last: real, chg: real, high: real, low: real, vol: real, changeAbs: real)

  /** How many symbols the list keeps. */
  const ListSize: nat := 40

  /** A USDT pair that is not a leveraged token. */
  predicate Listed(symbol: string) {
    EndsWith(symbol, "USDT") && !Includes(symbol, "UPUSDT") && !Includes(symbol, "DOWNUSDT")
  }

  predicate ListedCoin(c: Coin) {
    Listed(c.symbol)
  }

  /** Non-increasing quote volume along the list. */
  predicate ByVolume(s: seq<Coin>) {
    forall i, j :: 0 <= i < j < |s| ==> s[i].vol >= s[j].vol
  }

  /** Puts `c` before the first coin whose volume does not exceed its own,
      so that it stays ahead of coins of equal volume. */
  function Insert(c: Coin, s: seq<Coin>): (r: seq<Coin>)
    requires ByVolume(s)
    ensures multiset(r) == multiset(s) + multiset{c}
    ensures ByVolume(r)
  {
    if s == [] || s[0].vol <= c.vol then
      InsertFront(c, s);
      [c] + s
    else
      var rest := Insert(c, s[1..]);
      InsertBehind(c, s, rest);
      [s[0]] + rest
  }

  lemma InsertFront(c: Coin, s: seq<Coin>)
    requires ByVolume(s) && (s == [] || s[0].vol <= c.vol)
    ensures multiset([c] + s) == multiset(s) + multiset{c}
    ensures ByVolume([c] + s)
  {
    HeadIsMax(s);
    ConsByVolume(c, s);
  }

  lemma InsertBehind(c: Coin, s: seq<Coin>, rest: seq<Coin>)
    requires ByVolume(s) && s != [] && c.vol < s[0].vol
    requires ByVolume(rest) && multiset(rest) == multiset(s[1..]) + multiset{c}
    ensures multiset([s[0]] + rest) == multiset(s) + multiset{c}
    ensures ByVolume([s[0]] + rest)
  {
    assert s == [s[0]] + s[1..];
    HeadIsMax(s);
    RestBelowHead(s[0], c, s[1..], rest);
    ConsByVolume(s[0], rest);
  }

  /** The head of a ranked list has the largest volume. */
  lemma HeadIsMax(s: seq<Coin>)
    requires ByVolume(s)
    ensures forall y :: y in s ==> y.vol <= s[0].vol
  {
  }

  lemma RestBelowHead(x: Coin, c: Coin, tail: seq<Coin>, rest: seq<Coin>)
    requires forall y :: y in [x] + tail ==> y.vol <= x.vol
    requires c.vol < x.vol
    requires multiset(rest) == multiset(tail) + multiset{c}
    ensures forall y :: y in rest ==> y.vol <= x.vol
  {
    forall y | y in rest
      ensures y.vol <= x.vol
    {
      assert y in multiset(rest);
      if y != c {
        assert y in multiset(tail);
        assert y in [x] + tail;
      }
    }
  }

  /** A coin with at least the volume of every coin of a ranked list may go in front of it. */
  lemma ConsByVolume(x: Coin, s: seq<Coin>)
    requires ByVolume(s)
    requires forall y :: y in s ==> y.vol <= x.vol
    ensures ByVolume([x] + s)
  {
    var r := [x] + s;
    forall i, j | 0 <= i < j < |r|
      ensures r[i].vol >= r[j].vol
    {
      if i == 0 {
        assert r[j] in s;
      } else {
        assert r[i] == s[i - 1] && r[j] == s[j - 1];
      }
    }
  }

  /** `list.sort((a, b) => b.vol - a.vol)`: JavaScript's sort is stable, so
      coins of equal volume keep their snapshot order (`SortIsStable`). Each
      coin is inserted in front of the already sorted rest, ahead of equal
      volumes. */
  function SortByVolume(s: seq<Coin>): (r: seq<Coin>)
    ensures multiset(r) == multiset(s)
    ensures ByVolume(r)
  {
    if s == [] then []
    else
      assert s == [s[0]] + s[1..];
      Insert(s[0], SortByVolume(s[1..]))
  }

  /** The coins of volume `v`, in list order. */
  function OfVolume(s: seq<Coin>, v: real): seq<Coin> {
    if s == [] then []
    else if s[0].vol == v then [s[0]] + OfVolume(s[1..], v)
    else OfVolume(s[1..], v)
  }

  /** Inserting a coin puts it first among the coins of its volume and leaves
      the coins of every other volume as they were. */
  lemma {:induction false} InsertOfVolume(c: Coin, s: seq<Coin>, v: real)
    requires ByVolume(s)
    ensures OfVolume(Insert(c, s), v) == if c.vol == v then [c] + OfVolume(s, v) else OfVolume(s, v)
  {
    if s != [] && s[0].vol > c.vol {
      InsertOfVolume(c, s[1..], v);
      var rest := Insert(c, s[1..]);
      assert Insert(c, s) == [s[0]] + rest;
      assert ([s[0]] + rest)[1..] == rest;
      if c.vol == v {
        assert s[0].vol != v;
      }
    } else {
      assert ([c] + s)[1..] == s;
    }
  }

  /** The sort is stable: for every volume, the coins of that volume appear
      in the same order as in the snapshot. */
  lemma {:induction false} SortIsStable(s: seq<Coin>, v: real)
    ensures OfVolume(SortByVolume(s), v) == OfVolume(s, v)
  {
    if s != [] {
      SortIsStable(s[1..], v);
      InsertOfVolume(s[0], SortByVolume(s[1..]), v);
    }
  }

  /** `.slice(0, n)`. */
  function Take<T>(s: seq<T>, n: nat): (r: seq<T>)
    ensures |r| == if |s| <= n then |s| else n
    ensures r == s[..|r|]
  {
    if |s| <= n then s else s[..n]
  }

  /** The market list built from one ticker snapshot. */
  function MarketList(all: seq<Coin>): seq<Coin> {
    Take(SortByVolume(JsArray.Filter(all, ListedCoin)), ListSize)
  }

  /** The market list holds at most forty listed symbols, ranked by
      non-increasing volume, all drawn from the snapshot. */
  lemma MarketListShape(all: seq<Coin>)
    ensures |MarketList(all)| <= ListSize
    ensures var n := |JsArray.Filter(all, ListedCoin)|;
            |MarketList(all)| == if n <= ListSize then n else ListSize
    ensures forall k :: 0 <= k < |MarketList(all)| ==> Listed(MarketList(all)[k].symbol)
    ensures ByVolume(MarketList(all))
    ensures multiset(MarketList(all)) <= multiset(all)
  {
    var filtered := JsArray.Filter(all, ListedCoin);
    var sorted := SortByVolume(filtered);
    var list := MarketList(all);
    JsArray.FilterMembers(all, ListedCoin);
    TakeOfRanked(sorted, ListSize);
    assert |sorted| == |multiset(sorted)| == |multiset(filtered)| == |filtered|;
    forall k | 0 <= k < |list|
      ensures Listed(list[k].symbol)
    {
      assert list[k] in multiset(sorted);
      assert list[k] in filtered;
    }
  }

  /** A prefix of a ranked list is ranked, and holds part of it. */
  lemma TakeOfRanked(s: seq<Coin>, n: nat)
    requires ByVolume(s)
    ensures ByVolume(Take(s, n))
    ensures multiset(Take(s, n)) <= multiset(s)
  {
    var t := Take(s, n);
    assert s == t + s[|t|..];
  }

  /** Only the top of the ranking is kept: a listed coin of the snapshot that
      is not in the market list has no more volume than any coin in it. */
  lemma MarketListKeepsTop(all: seq<Coin>, c: Coin)
    requires c in all && Listed(c.symbol) && c !in MarketList(all)
    ensures forall k :: 0 <= k < |MarketList(all)| ==> MarketList(all)[k].vol >= c.vol
  {
    var filtered := JsArray.Filter(all, ListedCoin);
    var sorted := SortByVolume(filtered);
    var list := MarketList(all);
    JsArray.FilterMembers(all, ListedCoin);
    assert c in multiset(sorted);
    var j :| 0 <= j < |sorted| && sorted[j] == c;
    assert list == sorted[..|list|];
    assert forall k :: 0 <= k < |list| ==> sorted[k] != c;
    assert j >= |list|;
    forall k | 0 <= k < |list|
      ensures list[k].vol >= c.vol
    {
      assert list[k] == sorted[k];
    }
  }

  /** The symbol-to-coin map (`map[x.symbol] = x` over the list, in order,
      so a later row with a repeated symbol overwrites an earlier one). */
  function TickerMap(list: seq<Coin>): (m: map<string, Coin>)
    ensures m.Keys == set k | 0 <= k < |list| :: list[k].symbol
    ensures forall sym :: sym in m ==> m[sym].symbol == sym && m[sym] in list
  {
    if list == [] then map[]
    else
      var init := list[..|list| - 1];
      var c := list[|list| - 1];
      var m := TickerMap(init);
      assert list == init + [c];
      TickerMap(init)[c.symbol := c]
  }

  /** A later row with a repeated symbol overwrites an earlier one: the last
      row with a given symbol is the one the map holds. */
  lemma {:induction false} TickerMapLastWins(list: seq<Coin>, k: nat)
    requires k < |list|
    requires forall j :: k < j < |list| ==> list[j].symbol != list[k].symbol
    ensures TickerMap(list)[list[k].symbol] == list[k]
  {
    var init := list[..|list| - 1];
    if k < |list| - 1 {
      assert list[|list| - 1].symbol != list[k].symbol;
      assert init[k] == list[k];
      forall j | k < j < |init|
        ensures init[j].symbol != init[k].symbol
      {
        assert init[j] == list[j];
      }
      TickerMapLastWins(init, k);
    }
  }

  /** The selected symbol after a snapshot: kept when it is in the map, else
      the first symbol of the list (`usdt[0]?.symbol` is truthy for any
      listed symbol), else unchanged. */
  function FallbackSelected(selected: string, list: seq<Coin>, m: map<string, Coin>): string {
    if selected in m then selected
    else if list != [] && list[0].symbol != "" then list[0].symbol
    else selected
  }

  /** The market state the ticker poll maintains. `failed` is the banner
      shown when a poll fails. */
  datatype Market = Market(coins: seq<Coin>, tickers: map<string, Coin>, selected: string, failed: bool)

  /** One ticker poll: a snapshot rebuilds the list, map and selection; a
      failed request keeps the previous data and raises the banner. */
  function OnTickers(st: Market, snapshot: Option<seq<Coin>>): (r: Market)
    ensures snapshot.None? ==> r == st.(failed := true)
    ensures snapshot.Some? ==> !r.failed && r.coins == MarketList(snapshot.value)
    ensures snapshot.Some? && r.coins != [] ==> r.selected in r.tickers
    ensures snapshot.Some? && st.selected in r.tickers ==> r.selected == st.selected
    ensures snapshot.Some? && st.selected !in r.tickers && r.coins != [] ==> r.selected == r.coins[0].symbol
    ensures snapshot.Some? && r.coins == [] ==> r.selected == st.selected
    ensures snapshot.Some? ==> forall sym :: sym in r.tickers ==> r.tickers[sym] in r.coins && r.tickers[sym].symbol == sym
  {
    match snapshot
    case None => st.(failed := true)
    case Some(all) =>
      var list := MarketList(all);
      var m := TickerMap(list);
      FirstIsKey(all);
      Market(list, m, FallbackSelected(st.selected, list, m), false)
  }

  /** The first coin of a rebuilt list has a non-empty symbol that is a key
      of the rebuilt map. */
  lemma FirstIsKey(all: seq<Coin>)
    ensures var list := MarketList(all);
            list != [] ==> list[0].symbol != "" && list[0].symbol in TickerMap(list)
  {
    var list := MarketList(all);
    MarketListShape(all);
    if list != [] {
      assert Listed(list[0].symbol);
      var keys := TickerMap(list).Keys;
      assert list[0].symbol in keys;
    }
  }

  /** The ticker shown for the selected symbol, and its last price
      (`tickerMap[selected]?.last || 0`). */
  function LastPrice(tickers: map<string, Coin>, selected: string): (r: real)
    ensures selected !in tickers ==> r == 0.0
    ensures selected in tickers ==> r == tickers[selected].last
  {
    if selected in tickers then tickers[selected].last else 0.0
  }

  /** After a poll the header shows the last price of a coin of the new list
      with the selected symbol, or 0 when the list is empty; after a failed
      poll it shows the price it showed before. */
  lemma LastPriceAfterPoll(st: Market, snapshot: Option<seq<Coin>>)
    ensures var r := OnTickers(st, snapshot);
            && (snapshot.Some? && r.coins != [] ==>
                  exists k :: 0 <= k < |r.coins| && r.coins[k].symbol == r.selected
                              && LastPrice(r.tickers, r.selected) == r.coins[k].last)
            && (snapshot.Some? && r.coins == [] ==> LastPrice(r.tickers, r.selected) == 0.0)
            && (snapshot.None? ==> LastPrice(r.tickers, r.selected) == LastPrice(st.tickers, st.selected))
  {
    var r := OnTickers(st, snapshot);
    if snapshot.Some? && r.coins != [] {
      var c := r.tickers[r.selected];
      assert c in r.coins;
      var k :| 0 <= k < |r.coins| && r.coins[k] == c;
    }
  }

  /** The search box: `q.trim().toUpperCase()`; an empty query shows the
      whole list, otherwise the coins whose symbol contains the query. */
  function FilterCoins(coins: seq<Coin>, q: string): (r: seq<Coin>)
    ensures Blank(q) ==> r == coins
    ensures !Blank(q) ==> forall c :: c in r <==> c in coins && Includes(c.symbol, ToUpper(Trim(q)))
    ensures multiset(r) <= multiset(coins)
    ensures !Blank(q) ==> forall c :: multiset(r)[c] == if Includes(c.symbol, ToUpper(Trim(q))) then multiset(coins)[c] else 0
  {
    var qq := ToUpper(Trim(q));
    var matches := (c: Coin) => Includes(c.symbol, qq);
    JsArray.FilterMembers(coins, matches);
    forall c | true
      ensures multiset(JsArray.Filter(coins, matches))[c] == if matches(c) then multiset(coins)[c] else 0
    {
      JsArray.FilterCount(coins, matches, c);
    }
    if qq == "" then coins else JsArray.Filter(coins, matches)
  }

  /** Searching two parts of the list is searching each, so the matches keep
      the list's order. */
  lemma FilterCoinsAppend(a: seq<Coin>, b: seq<Coin>, q: string)
    ensures FilterCoins(a + b, q) == FilterCoins(a, q) + FilterCoins(b, q)
  {
    var qq := ToUpper(Trim(q));
    if qq != "" {
      JsArray.FilterAppend(a, b, (c: Coin) => Includes(c.symbol, qq));
    }
  }
}

=== FILE: ticket.dfy ===
/** The manual trade ticket of the trading page: estimated value, fee and
    total, the submit condition, placing and cancelling orders, and the
    leverage stepper (frontend/src/pages/TradingPro.jsx). */
module OrderTicket {
  import opened Wrappers
  import opened JsNum
  import JsArray

  /** The demo account's balance in USDT. */
  const Balance: real := 97280.12

  datatype Side = Up | Down
  datatype OrderType = Market | Limit

  /** The ticket's inputs; `amount` and `limitPrice` are the text fields as
      `Number(x || 0)` reads them (None for text that is not a number). */
  datatype Ticket = Ticket(side: Side, orderType: OrderType, amount: Option<real>, limitPrice: Option<real>)

  /** `estValue`: amount times the market price (the ticker's last price) or
      the limit price; 0 when either is 0 or not a number. */
  function EstValue(t: Ticket, last: real): real {
    var amt := OrZero(t.amount);
    var px := if t.orderType == Market then last else OrZero(t.limitPrice);
    if amt == 0.0 then 0.0
    else if px == 0.0 then 0.0
    else amt * px
  }

  /** The fee: 0.1% of the estimated value. */
  function Fee(est: real): real {
    est * 0.001
  }

  /** Total cost of an UP order (value plus fee) or estimated receipt of a
      DOWN order (value minus fee, never below 0). */
  function Total(side: Side, est: real): real {
    if side == Up then est + Fee(est) else Max(est - Fee(est), 0.0)
  }

  /** `canSubmit`. */
  predicate CanSubmit(t: Ticket, last: real) {
    var amt := OrZero(t.amount);
    if amt == 0.0 || amt <= 0.0 then false
    else if t.orderType == Limit && (OrZero(t.limitPrice) == 0.0 || OrZero(t.limitPrice) <= 0.0) then false
    else if t.side == Up then Total(Up, EstValue(t, last)) <= Balance
    else true
  }

  /** Value, fee and total: the fee is a thousandth of the value; for a
      non-negative value an UP total is 100.1% of it and a DOWN total 99.9%;
      a DOWN total is never negative. */
  lemma TotalSpec(side: Side, est: real)
    ensures Fee(est) * 1000.0 == est
    ensures side == Down ==> Total(side, est) >= 0.0
    ensures est >= 0.0 && side == Up ==> Total(side, est) == est * 1.001
    ensures est >= 0.0 && side == Down ==> Total(side, est) == est * 0.999
  {
  }

  /** A ticket can be submitted exactly when the amount is a positive number,
      a limit order has a positive limit price, and an UP order's total cost
      (value plus 0.1% fee) is within the balance. */
  lemma CanSubmitSpec(t: Ticket, last: real)
    ensures CanSubmit(t, last) <==>
              && t.amount.Some? && t.amount.value > 0.0
              && (t.orderType == Limit ==> t.limitPrice.Some? && t.limitPrice.value > 0.0)
              && (t.side == Up ==> EstValue(t, last) * 1.001 <= Balance)
    ensures CanSubmit(t, last) && t.orderType == Limit ==>
              EstValue(t, last) == t.amount.value * t.limitPrice.value && EstValue(t, last) > 0.0
  {
    if t.amount.Some? && t.amount.value > 0.0 && t.orderType == Limit
       && t.limitPrice.Some? && t.limitPrice.value > 0.0 {
      var a := t.amount.value;
      var p := t.limitPrice.value;
      MulStrict(0.0, a, p);
    }
  }

  /** Nothing checks the market price: with no ticker loaded (last price 0)
      a market order of any positive amount can be submitted, and is
      recorded at price 0. */
  lemma MarketOrderWithoutPrice(side: Side, amount: real, d: Desk, selected: string, id: string)
    requires amount > 0.0
    ensures CanSubmit(Ticket(side, Market, Some(amount), None), 0.0)
    ensures var r := PlaceOrder(d.(ticket := Ticket(side, Market, Some(amount), None)), selected, 0.0, id);
            && r.history[0].price == 0.0 && r.history[0].amount == amount
            && r.history[1..] == d.history && r.openOrders == d.openOrders
  {
  }

  datatype Status = Open | Filled

  datatype Order = Order(id: string, sym: string, side: Side, orderType: OrderType, price: real, amount: real, status: Status)

  /** The ticket together with the two order lists it feeds. */
  datatype Desk = Desk(ticket: Ticket, openOrders: seq<Order>, history: seq<Order>)

  /** `placeOrder`, with the random order id given as `id`: a submittable
      market order is recorded first in the history as filled at the last
      price, a limit order first among the open orders at its limit price,
      and the amount field is cleared; otherwise nothing changes. */
  function PlaceOrder(d: Desk, selected: string, last: real, id: string): (r: Desk)
    ensures !CanSubmit(d.ticket, last) ==> r == d
    ensures CanSubmit(d.ticket, last) ==>
              && r.ticket == d.ticket.(amount := Some(0.0))
              && !CanSubmit(r.ticket, last)
    ensures CanSubmit(d.ticket, last) && d.ticket.orderType == Market ==>
              && r.openOrders == d.openOrders
              && r.history == [Order(id, selected, d.ticket.side, Market, last, d.ticket.amount.value, Filled)] + d.history
    ensures CanSubmit(d.ticket, last) && d.ticket.orderType == Limit ==>
              && r.history == d.history
              && |r.openOrders| == |d.openOrders| + 1 && r.openOrders[1..] == d.openOrders
              && r.openOrders[0].price > 0.0 && r.openOrders[0].amount > 0.0
              && r.openOrders[0] == Order(id, selected, d.ticket.side, Limit, d.ticket.limitPrice.value, d.ticket.amount.value, Open)
  {
    var t := d.ticket;
    if !CanSubmit(t, last) then d
    else
      CanSubmitSpec(t, last);
      var px := if t.orderType == Market then last else OrZero(t.limitPrice);
      var o := Order(id, selected, t.side, t.orderType, px, OrZero(t.amount), if t.orderType == Market then Filled else Open);
      var cleared := t.(amount := Some(0.0));
      if t.orderType == Market then Desk(cleared, d.openOrders, [o] + d.history)
      else Desk(cleared, [o] + d.openOrders, d.history)
  }

  /** The estimated value the ticket shows is the value of the order it
      places: price times amount of the new history entry for a market
      order, or of the new open order for a limit order. */
  lemma EstValueOfPlacedOrder(d: Desk, selected: string, last: real, id: string)
    requires CanSubmit(d.ticket, last)
    ensures var r := PlaceOrder(d, selected, last, id);
            var o := if d.ticket.orderType == Market then r.history[0] else r.openOrders[0];
            o.price * o.amount == EstValue(d.ticket, last)
  {
    CanSubmitSpec(d.ticket, last);
  }

  /** `cancelOrder(id)`: drops every open order with that id and keeps the
      others in order. */
  function CancelOrder(orders: seq<Order>, id: string): (r: seq<Order>)
    ensures forall o :: o in r <==> o in orders && o.id != id
    ensures multiset(r) <= multiset(orders)
    ensures (forall k :: 0 <= k < |orders| ==> orders[k].id != id) ==> r == orders
  {
    if orders == [] then []
    else
      var rest := CancelOrder(orders[1..], id);
      assert orders == [orders[0]] + orders[1..];
      if orders[0].id != id then [orders[0]] + rest else rest
  }

  /** An open order whose id is not `id`. */
  predicate Kept(id: string, o: Order) {
    o.id != id
  }

  /** Cancelling is `orders.filter((x) => x.id !== id)`: the remaining orders
      keep their order, and each stays as often as it was listed. */
  lemma {:induction false} CancelOrderIsFilter(orders: seq<Order>, id: string)
    ensures CancelOrder(orders, id) == JsArray.Filter(orders, x => Kept(id, x))
    ensures forall o :: multiset(CancelOrder(orders, id))[o] == if o.id != id then multiset(orders)[o] else 0
  {
    if orders != [] {
      CancelOrderIsFilter(orders[1..], id);
    }
    forall o | true
      ensures multiset(CancelOrder(orders, id))[o] == if o.id != id then multiset(orders)[o] else 0
    {
      JsArray.FilterCount(orders, x => Kept(id, x), o);
    }
  }

  /** Cancelling from two lists is cancelling from each, in order. */
  lemma CancelOrderAppend(a: seq<Order>, b: seq<Order>, id: string)
    ensures CancelOrder(a + b, id) == CancelOrder(a, id) + CancelOrder(b, id)
  {
    CancelOrderIsFilter(a + b, id);
    CancelOrderIsFilter(a, id);
    CancelOrderIsFilter(b, id);
    JsArray.FilterAppend(a, b, x => Kept(id, x));
  }

  const MinLeverage: int := 1
  const MaxLeverage: int := 50

  /** The "-" button: one step down, never below 1x. */
  function LeverageDown(v: int): (r: int)
    ensures r >= MinLeverage
    ensures MinLeverage <= v <= MaxLeverage ==> MinLeverage <= r <= MaxLeverage
    ensures v > MinLeverage ==> r == v - 1
    ensures v <= MinLeverage ==> r == MinLeverage
  {
    if v - 1 < MinLeverage then MinLeverage else v - 1
  }

  /** The "+" button: one step up, never above 50x. */
  function LeverageUp(v: int): (r: int)
    ensures r <= MaxLeverage
    ensures MinLeverage <= v <= MaxLeverage ==> MinLeverage <= r <= MaxLeverage
    ensures v < MaxLeverage ==> r == v + 1
    ensures v >= MaxLeverage ==> r == MaxLeverage
  {
    if v + 1 > MaxLeverage then MaxLeverage else v + 1
  }

  /** Inside the range the two buttons undo each other, and at the ends they stick. */
  lemma LeverageSteps(v: int)
    requires MinLeverage <= v <= MaxLeverage
    ensures v < MaxLeverage ==> LeverageDown(LeverageUp(v)) == v
    ensures v > MinLeverage ==> LeverageUp(LeverageDown(v)) == v
    ensures LeverageUp(MaxLeverage) == MaxLeverage && LeverageDown(MinLeverage) == MinLeverage
  {
  }
}

=== FILE: wrappers.dfy ===
/** The failure-compatible Option type used throughout the model.
    For a JavaScript number, `Some(v)` is a finite value and `None` is NaN;
    for a record field, `None` is a missing (`undefined` / `null`) field. */
module Wrappers {

  datatype Option<+T> = None | Some(value: T) {

    /** Returns the value encapsulated in Some, or a default value if None */
    function GetOr(default: T): T {
      match this
      case Some(v) => v
      case None => default
    }
  }
}

=== FILE: yield.dfy ===
/** The closed-form yield estimate shared by the mining package pages
    (src/pages/MiningPackages.jsx and frontend/src/pages/StarterRig.jsx). */
module Yield {
  import opened Wrappers

  /** A package's terms: daily profit percent, duration in days, and the
      allowed range of the invested amount. */
  datatype Plan = Plan(dailyPct: real, durationDays: nat, min: real, max: real)

  /** The figures of the calculator panel. */
  datatype Figures = Figures(inRange: bool, dailyProfit: real, totalProfit: real, totalReturn: real, roiPct: real)

  /** `Number.isFinite(a) ? a : 0`: the amount a non-finite input counts as. */
  function SafeAmount(amount: Option<real>): real {
    amount.GetOr(0.0)
  }

  /** The `calc` memo. */
  function Calc(amount: Option<real>, p: Plan): Figures {
    var a := SafeAmount(amount);
    var dailyProfit := a * (p.dailyPct / 100.0);
    var totalProfit := dailyProfit * p.durationDays as real;
    Figures(
      p.min <= a && a <= p.max,
      dailyProfit,
      totalProfit,
      a + totalProfit,
      if a > 0.0 then totalProfit / a * 100.0 else 0.0)
  }

  /** What the calculator shows: the range check, the daily profit as the
      daily percent of the amount, the profit over the whole duration, the
      principal plus that profit, and an ROI that is 0 for a non-positive
      amount and otherwise the daily percent times the days, whatever the
      amount. A non-finite amount shows the figures of 0. */
  lemma CalcSpec(amount: Option<real>, p: Plan)
    ensures var a := SafeAmount(amount);
            var f := Calc(amount, p);
            && (f.inRange <==> p.min <= a <= p.max)
            && f.dailyProfit * 100.0 == a * p.dailyPct
            && f.totalProfit == f.dailyProfit * p.durationDays as real
            && f.totalReturn == a + f.totalProfit
            && (a <= 0.0 ==> f.roiPct == 0.0)
            && (a > 0.0 ==> f.roiPct == p.dailyPct * p.durationDays as real)
    ensures amount.None? ==> Calc(amount, p) == Calc(Some(0.0), p)
  {
    var a := SafeAmount(amount);
    if a > 0.0 {
      var d := p.durationDays as real;
      var tp := a * (p.dailyPct / 100.0) * d;
      assert tp == a * (p.dailyPct * d / 100.0);
      assert tp / a == p.dailyPct * d / 100.0;
    }
  }

  /** The Proceed button, `disabled={!calc.inRange || amount <= 0}`; an
      amount that is not a number is not `<= 0`. */
  predicate ProceedEnabled(amount: Option<real>, p: Plan) {
    Calc(amount, p).inRange && !(amount.Some? && amount.value <= 0.0)
  }

  /** With a positive minimum, Proceed is enabled exactly when the amount is
      within the package's range. */
  lemma ProceedIffInRange(amount: Option<real>, p: Plan)
    requires p.min > 0.0
    ensures ProceedEnabled(amount, p) <==> amount.Some? && p.min <= amount.value <= p.max
  {
  }
}
